=== FILE: README.md ===
# Procurement portal front end — a Dafny model

This project models the client-side logic of a public-procurement portal.
The portal is a Next.js application in which government agencies publish
bids (licitações) and companies (participants) send proposals.

The model covers these parts:

- **Session.** The session helpers keep a bearer token and a role tag in
  browser storage. The route guard reads them, and so do the navigation
  bar's logout and the header.
- **Login page.** Its form validation, email pattern, input handling,
  mode toggle and submit.
- **Wallet link.** The hook connects a universal account, finds or creates
  the application's sub-account, and sends calls from it. It can also
  disconnect, and it restores the addresses on mount. The wallet card
  renders the result.
- **Certificate page.** The participant's digital-certificate page:
  - CNPJ (company registry number) cleaning, validation and display;
  - the status check on mount, with its fallback to storage;
  - submission and revocation.
- **Bid creation.** The bid-creation form, shared by the dashboard modal
  and the stand-alone page. This covers required-field validation, the
  input handler and the modal's submission, including its future-date
  guard and its callbacks.
- **Bid listings.** The public and government bid listings: search, the
  status filter and the result counter, over the pages' sample data.
- **Proposal ranking.** The ranking of a bid's proposals: a stable sort
  by descending score, and the best-proposal mark.

Everything is a pure function over immutable data:

- Browser storage is a `map<string, string>`. A `Browser` value also
  records whether a `window` exists, because server rendering skips every
  storage access.
- Calls into code this project does not contain become inputs:
  - the wallet provider's answers, the backend's HTTP answers, the clock;
  - `Number(...)` and `Date` parsing, and the float arithmetic that turns
    an amount into wei;
  - `JSON.stringify` / `JSON.parse`. These are oracle functions. A
    `RoundTrips` predicate states when parsing undoes serialising.
- Navigation (`router.push`, `window.location.href`) and the callbacks a
  page invokes are returned as values.

Behaviour of the code worth noting:

- Addresses returned by the wallet provider are stored as returned. They
  are not normalised.
- A failed sub-account step does not roll back the universal address
  already stored.
- No rule derives the role from the user name. The role is whatever tag
  was stored.
- Connecting with an empty account list marks the hook connected. It
  stores the text "undefined", which the next mount takes for an address.
- The session token lives under `authToken`. The certificate page and the
  creation modal read a different key, `token`.

## Model

| member | source | states |
|---|---|---|
| Text.TrimEmptyIffBlank | packages/nextjs/app/auth/page.tsx:39-45 | `trim()` yields the empty string exactly when every character is JavaScript whitespace, which is the presence test the forms rely on |
| Text.Includes | packages/nextjs/app/licitacoes/page.tsx:95-98 | `includes` is true exactly when the needle occurs at some position of the haystack |
| Text.ToLowerIdempotent | packages/nextjs/app/licitacoes/page.tsx:95-98 | lower-casing an already lower-cased string changes nothing |
| Text.DigitsOnlyIsFilter | packages/nextjs/app/participante/certificado/page.tsx:101 | dropping the non-digits is filtering by the `\d` class: every digit is kept, in order |
| Text.DigitsOnlyIdempotent | packages/nextjs/app/participante/certificado/page.tsx:101 | stripping non-digits twice is stripping them once |
| Lists.Filter | packages/nextjs/app/licitacoes/page.tsx:94-103 | `filter` keeps exactly the elements that satisfy the predicate, and never adds any |
| Lists.FilterIsSubsequence | packages/nextjs/app/licitacoes/page.tsx:94-103 | the filtered list is a subsequence of the original: the kept elements stay in their original order |
| Storage.SetItem | packages/nextjs/utils/auth.ts:11-15 | a guarded write stores the value under its key and changes no other key; without a window it does nothing |
| Storage.RemoveItem | packages/nextjs/utils/auth.ts:30-35 | a guarded removal deletes only its key |
| Auth.SetAuthToken | packages/nextjs/utils/auth.ts:11-15 | the token becomes readable and every other key is unchanged |
| Auth.GetAuthToken | packages/nextjs/utils/auth.ts:20-25 | a token is returned exactly when the window exists and the key is stored, and it is the stored value |
| Auth.RemoveAuthToken | packages/nextjs/utils/auth.ts:30-35 | both the token and the role tag are gone, and all other keys are kept |
| Auth.SetUserType | packages/nextjs/utils/auth.ts:40-44 | the role tag is stored and the token is unchanged |
| Auth.GetUserType | packages/nextjs/utils/auth.ts:49-54 | the stored tag is returned unchecked; nothing is returned without a window or without a stored tag |
| Auth.Logout | packages/nextjs/utils/auth.ts:80-85 | afterwards the session is neither authenticated nor of any role, and the login page is opened when a window exists |
| Auth.RedirectToDashboard | packages/nextjs/utils/auth.ts:112-124 | each role goes to its own dashboard, and any other tag, absence included, goes to the login page |
| Auth.SetTokenAuthenticates | packages/nextjs/utils/auth.ts:59-61 | storing a token authenticates the session exactly when the token is non-empty and a window exists |
| Auth.SetTokenKeepsRole | packages/nextjs/utils/auth.ts:11-15 | setting the token leaves the role alone, and setting the role leaves authentication alone |
| Auth.RemoveAuthTokenIdempotent | packages/nextjs/utils/auth.ts:30-35 | removing the session twice is removing it once |
| Auth.RolesExclusive | packages/nextjs/utils/auth.ts:66-75 | no session is both government and participant, and an unrecognised tag is neither |
| Auth.LogoutIdempotent | packages/nextjs/utils/auth.ts:80-85 | logging out twice leaves the same storage as logging out once |
| ProtectedRoute.CheckAuth | packages/nextjs/components/ProtectedRoute.tsx:18-46 | access is allowed exactly when authenticated with the required role. Unauthenticated visitors go to `redirectTo`; a role mismatch goes to the login page |
| ProtectedRoute.Render | packages/nextjs/components/ProtectedRoute.tsx:50-68 | the children show exactly when loading finished and access was granted, and the spinner shows exactly while loading |
| ProtectedRoute.Mount | packages/nextjs/components/ProtectedRoute.tsx:13-68 | after mounting, the children show exactly for an authorised user with no redirect. Otherwise the spinner stays and one redirect is issued |
| ProtectedRoute.UnauthenticatedGoesToRedirectTo | packages/nextjs/components/ProtectedRoute.tsx:22-26 | an unauthenticated visitor is sent to `redirectTo` whatever role is required |
| ProtectedRoute.RoleMismatchGoesToLogin | packages/nextjs/components/ProtectedRoute.tsx:29-40 | a signed-in non-government user on a government page goes to "/auth", not to `redirectTo` |
| ProtectedRoute.NoRoleRequiredAdmitsAnyUser | packages/nextjs/components/ProtectedRoute.tsx:29-44 | without a required role, any signed-in user is admitted |
| ProtectedRoute.NothingUnreachable | packages/nextjs/components/ProtectedRoute.tsx:64-66 | from the initial state the empty render is never reached |
| ProtectedRoute.LoggedOutSeesNoPage | packages/nextjs/utils/auth.ts:80-85 | after logout no guarded page shows its children |
| Hex.NatToHex | packages/nextjs/hooks/useBaseAccount.ts:211 | the numeral is non-empty, uses lower-case hex digits, has no leading zero and denotes the number |
| Hex.ToString16 | packages/nextjs/hooks/useBaseAccount.ts:211 | `toString(16)` writes lower-case hex digits with no leading zero whose value is the number, preceded by a minus sign for negatives |
| Hex.NatToHexInjective | packages/nextjs/hooks/useBaseAccount.ts:211 | distinct chain ids get distinct numerals |
| Hex.BaseSepoliaChainId | packages/nextjs/hooks/useBaseAccount.ts:196 | the default chain id 84532 is "14a34" in hex |
| BaseAccount.Failed | packages/nextjs/hooks/useBaseAccount.ts:45-50 | a rejected request keeps both addresses, the connection flag and storage, clears loading, and records the thrown message or else the operation's default |
| BaseAccount.ConnectUniversalAccount | packages/nextjs/hooks/useBaseAccount.ts:18-53 | one accounts request is made. The first account becomes the universal address, is stored and marks the hook connected; a rejection only records the error |
| BaseAccount.CheckExistingSubAccount | packages/nextjs/hooks/useBaseAccount.ts:58-100 | the lookup is made for the universal address and the page origin, and the first sub-account found is adopted and stored. An empty answer changes nothing but clears the error and loading |
| BaseAccount.CreateSubAccount | packages/nextjs/hooks/useBaseAccount.ts:105-142 | the created sub-account is adopted and stored, and a rejection records the error |
| BaseAccount.Initialize | packages/nextjs/hooks/useBaseAccount.ts:147-190 | the accounts request comes first. The result is true exactly when connect produced a non-empty address |
| BaseAccount.SendTransaction | packages/nextjs/hooks/useBaseAccount.ts:195-239 | without a sub-account it throws before any request. Otherwise one atomic batch of one call goes out from the sub-account, loading ends and the addresses, the connection flag and storage are kept; a rejection returns null and records the error |
| BaseAccount.Disconnect | packages/nextjs/hooks/useBaseAccount.ts:244-254 | both addresses and the connection are cleared, and exactly the two storage keys are removed |
| BaseAccount.Restore | packages/nextjs/hooks/useBaseAccount.ts:259-277 | a non-empty stored address reconnects the hook. A non-empty stored sub-account is adopted exactly when it parses; storage is only read |
| BaseAccount.ConnectFailureKeepsLink | packages/nextjs/hooks/useBaseAccount.ts:44-50 | a failed connect keeps the addresses, the connection flag and storage |
| BaseAccount.ConnectWithNoAccounts | packages/nextjs/hooks/useBaseAccount.ts:31-40 | an empty account list marks the hook connected with no address, and stores the text "undefined" |
| BaseAccount.NoAccountsRestoresUndefined | packages/nextjs/hooks/useBaseAccount.ts:259-268 | the next mount then takes "undefined" for a connected address |
| BaseAccount.InitializeWithoutUniversal | packages/nextjs/hooks/useBaseAccount.ts:156-160 | without a usable address, initialize reports false with its own message and makes no further request |
| BaseAccount.InitializeCreatesOnlyWhenNoneFound | packages/nextjs/hooks/useBaseAccount.ts:162-176 | a sub-account is created exactly when the lookup found none, and the result is true either way |
| BaseAccount.InitializeTrueDespiteFailedCreate | packages/nextjs/hooks/useBaseAccount.ts:166-176 | a failed creation still yields true, shows the creation error and keeps the stored universal address |
| BaseAccount.SendWithDefaults | packages/nextjs/hooks/useBaseAccount.ts:195-220 | with the defaults the batch carries chain id "0x14a34" and value "0x0" |
| BaseAccount.DisconnectIdempotent | packages/nextjs/hooks/useBaseAccount.ts:244-254 | disconnecting twice is disconnecting once |
| BaseAccount.RestoreAfterDisconnect | packages/nextjs/hooks/useBaseAccount.ts:259-277 | a page mounted after a disconnect starts disconnected |
| BaseAccount.RestoreAfterInitialize | packages/nextjs/hooks/useBaseAccount.ts:147-277 | after a completed link, a fresh mount restores the same address and sub-account, given that JSON round-trips |
| BaseAccountConnect.FormatAddress | packages/nextjs/components/BaseAccountConnect.tsx:13-15 | the label is the address's first six characters, "..." and its last four, and has 13 characters for addresses of six or more |
| BaseAccountConnect.Render | packages/nextjs/components/BaseAccountConnect.tsx:17-90 | the connected view shows exactly when connected with a non-empty address and a sub-account. Otherwise the banner shows exactly for a non-empty error, and the button is disabled and relabelled exactly while loading |
| BaseAccountConnect.FailedInitializeShowsMessage | packages/nextjs/hooks/useBaseAccount.ts:147-160 | after `initialize` gets no usable address the card shows its failure message with the button enabled, unless a rejected connect leaves an earlier link on display |
| BaseAccountConnect.DisconnectShowsConnectView | packages/nextjs/hooks/useBaseAccount.ts:244-254 | after a disconnect the card offers to connect, with no error |
| Header.TruncateAddress | packages/nextjs/components/Header.tsx:31-34 | the empty address stays empty. Any other is shortened like the wallet card's label |
| Header.DashboardHref | packages/nextjs/components/Header.tsx:146 | the government dashboard is linked exactly for the "governo" tag, and the participant's for any other |
| Header.Mount | packages/nextjs/components/Header.tsx:50-71 | the header is signed in exactly when the session is authenticated. A wallet is shown only when the stored user record parses and names it |
| Header.MountReadsWallet | packages/nextjs/components/Header.tsx:56-66 | a signed-in user whose record parses sees that record's wallet |
| GovernoNav.HandleLogout | packages/nextjs/components/governo/GovernoNav.tsx:34-36 | logout leaves the session unauthenticated and goes to the login page |
| GovernoNav.SiblingNotActive | packages/nextjs/components/governo/GovernoNav.tsx:45 | a path under a link activates it, but a sibling path sharing its text does not |
| GovernoNav.AtMostOneActive | packages/nextjs/components/governo/GovernoNav.tsx:16-45 | no path activates two of the three links |
| AuthPage.ValidateEmail | packages/nextjs/app/auth/page.tsx:23-26 | true exactly for texts made of a local part, "@", a domain, "." and a suffix, each non-empty and free of whitespace and "@" |
| AuthPage.WhitespaceIsNotEmail | packages/nextjs/app/auth/page.tsx:23-26 | a text with whitespace anywhere is not an email |
| AuthPage.ExampleEmail | packages/nextjs/app/auth/page.tsx:23-26 | "ana@gov.br" is an email |
| AuthPage.ExampleEmailWithoutDot | packages/nextjs/app/auth/page.tsx:23-26 | "ana@govbr" is not |
| AuthPage.ValidateForm | packages/nextjs/app/auth/page.tsx:35-77 | the form is valid exactly when no error is set. The email error is "required" exactly for a blank email and "invalid" exactly for a non-blank non-email. The password fails exactly when shorter than 6 UTF-16 units; when signing up, name and confirmation are checked too |
| AuthPage.HandleInputChange | packages/nextjs/app/auth/page.tsx:28-33 | the field gets the value and its error is cleared; every other field and error is kept |
| AuthPage.ToggleMode | packages/nextjs/app/auth/page.tsx:101-115 | the mode flips and every field and error is emptied |
| AuthPage.HandleSubmit | packages/nextjs/app/auth/page.tsx:79-99 | the recorded errors are those of `validateForm`, and profile selection opens exactly when the form is acceptable field by field (email present and well formed, password of six code units or more, and on sign-up a name and a matching confirmation), in both modes |
| AuthPage.SubmitAgreesWithValidation | packages/nextjs/app/auth/page.tsx:79-99 | the errors submission records are exactly those `validateForm` finds, and navigation happens exactly when `validateForm` returns true |
| AuthPage.LeadingSpaceIsInvalidEmail | packages/nextjs/app/auth/page.tsx:41-45 | an email with a leading space passes the presence test but fails the pattern |
| AuthPage.ToggleTwice | packages/nextjs/app/auth/page.tsx:101-115 | toggling twice restores the mode, with an empty form |
| AuthPage.LoginIgnoresNameAndConfirmation | packages/nextjs/app/auth/page.tsx:37-75 | when signing in, validity does not depend on the name or the confirmation |
| Cnpj.Clean | packages/nextjs/app/participante/certificado/page.tsx:101 | the cleaned value is the input's digits, all of them, in their order |
| Cnpj.FirstRun | packages/nextjs/app/participante/certificado/page.tsx:344 | the formatter's pattern matches at the leftmost start of fourteen consecutive digits, and nowhere before it |
| Cnpj.Format | packages/nextjs/app/participante/certificado/page.tsx:344 | a value without fourteen consecutive digits is shown unchanged; otherwise the first run gains the separators . . / - and what surrounds it is kept, so the display is four characters longer with the same digits |
| Cnpj.PunctuateKeepsDigits | packages/nextjs/app/participante/certificado/page.tsx:344 | punctuating a CNPJ neither adds nor drops a digit |
| Cnpj.CleanFormat | packages/nextjs/app/participante/certificado/page.tsx:344 | cleaning the display gives the cleaned value, for every input |
| Cnpj.FormatCleanCnpj | packages/nextjs/app/participante/certificado/page.tsx:344 | a cleaned CNPJ is shown as dd.ddd.ddd/dddd-dd, and cleaning that gives it back |
| Cnpj.ExampleFormat | packages/nextjs/app/participante/certificado/page.tsx:344 | "12345678000190" is shown as "12.345.678/0001-90" |
| CertificatePage.ValidateForm | packages/nextjs/app/participante/certificado/page.tsx:94-122 | the CNPJ error is "required" exactly when cleaning leaves nothing, "14 digits" exactly for another length, and absent exactly for 14 digits. The value passes exactly when present and positive; valid means no error |
| CertificatePage.HandleInputChange | packages/nextjs/app/participante/certificado/page.tsx:124-128 | the field gets the value and its error is cleared, and nothing else changes |
| CertificatePage.FromStatus | packages/nextjs/app/participante/certificado/page.tsx:54-61 | the rebuilt certificate keeps the answer's CID, CNPJ and enterprise value, links to the CID through the public IPFS gateway, and is dated now in seconds |
| CertificatePage.RestoreFromStore | packages/nextjs/app/participante/certificado/page.tsx:75-87 | the stored certificate is adopted exactly when it is present, non-empty and parses |
| CertificatePage.SyncStatus | packages/nextjs/app/participante/certificado/page.tsx:36-92 | a request is made exactly when a token is stored, and a non-OK answer changes nothing. An OK answer stores or removes the certificate as the backend reports; a failure falls back to storage |
| CertificatePage.SubmitCertificate | packages/nextjs/app/participante/certificado/page.tsx:130-199 | errors are shown exactly as validation finds them. A request is posted exactly for a valid form with a token; it carries that token, the cleaned 14-digit CNPJ and the parsed value. A valid form without a token goes to "/auth". On an OK answer with a body the certificate built from the answer's CID, IPFS link and time, the cleaned CNPJ and the parsed value is shown and stored; on every other path after validation only submission ends, and storage is untouched |
| CertificatePage.RevokeCertificate | packages/nextjs/app/participante/certificado/page.tsx:201-208 | a confirmed revocation removes only the stored certificate, clears it and the form, and keeps the errors and the submitting flag. An unconfirmed one changes nothing |
| CertificatePage.PunctuationIgnored | packages/nextjs/app/participante/certificado/page.tsx:101 | a CNPJ typed with its punctuation validates like its bare digits |
| CertificatePage.SyncedCertificateSurvivesOutage | packages/nextjs/app/participante/certificado/page.tsx:51-87 | a certificate confirmed by the backend is restored from storage when a later check fails, given that JSON round-trips |
| CertificatePage.RevokedCertificateNotRestored | packages/nextjs/app/participante/certificado/page.tsx:201-208 | after a revocation a failed check restores nothing |
| BidForm.Collect | packages/nextjs/app/governo/dashboard/components/ModalCriarLicitacao.tsx:39-53 | exactly the checked fields that are missing get an error, each with its own message |
| BidForm.Validate | packages/nextjs/app/governo/dashboard/components/ModalCriarLicitacao.tsx:39-53 | a field has an error exactly when it is required and missing (blank for name, party and description, empty for the rest). Valid means no required field is missing |
| BidForm.HandleInputChange | packages/nextjs/app/governo/dashboard/components/ModalCriarLicitacao.tsx:31-37 | the field gets the value, its error is blanked if present, and the set of fields with errors is unchanged |
| BidForm.ModalRequiredFields | packages/nextjs/app/governo/dashboard/components/ModalCriarLicitacao.tsx:42-49 | the modal checks every field except the documents and the requirements |
| BidForm.PageRequiredFields | packages/nextjs/app/governo/criar-licitacao/page.tsx:41-47 | the page checks what the modal checks, except the minimum capacity |
| BidForm.PageDropsCapacityCheck | packages/nextjs/app/governo/criar-licitacao/page.tsx:38-51 | the page's errors are the modal's minus the minimum-capacity error |
| BidForm.BlankNameRejected | packages/nextjs/app/governo/dashboard/components/ModalCriarLicitacao.tsx:42 | a name of spaces only is rejected with "Bid name is required" |
| BidForm.EmptyFormFailsEveryCheck | packages/nextjs/app/governo/dashboard/components/ModalCriarLicitacao.tsx:121-132 | the emptied form fails every required check |
| BidForm.OptionalFieldsNeverFail | packages/nextjs/app/governo/dashboard/components/ModalCriarLicitacao.tsx:39-53 | documents and requirements never get an error |
| CreateBidModal.DurationSeconds | packages/nextjs/app/governo/dashboard/components/ModalCriarLicitacao.tsx:73-75 | the duration is the whole number of seconds until closing, rounded down |
| CreateBidModal.HandleSubmit | packages/nextjs/app/governo/dashboard/components/ModalCriarLicitacao.tsx:55-146 | an invalid form only shows its errors. A request is made exactly for a valid form with a token, a closing time at least a second ahead (or unparsable) and a convertible amount; it carries the amount in wei, the whole seconds until closing (none for an unparsable date), the parsed minimum capacity and the description. The callbacks run, and the form empties, exactly on an OK answer; every path after validation ends not submitting |
| CreateBidModal.DurationPositiveIff | packages/nextjs/app/governo/dashboard/components/ModalCriarLicitacao.tsx:73-81 | the future-date guard admits a parsed closing time exactly when it is at least 1000 ms ahead |
| CreateBidModal.NearClosingRefused | packages/nextjs/app/governo/dashboard/components/ModalCriarLicitacao.tsx:77-81 | a closing time less than a second ahead is refused with no request and no callback |
| CreateBidModal.UnparsableDatePassesGuard | packages/nextjs/app/governo/dashboard/components/ModalCriarLicitacao.tsx:73-81 | an unparsable closing date passes the guard and is sent without a duration |
| CreateBidModal.SuccessResetsForm | packages/nextjs/app/governo/dashboard/components/ModalCriarLicitacao.tsx:121-139 | after a successful creation an immediate resubmission fails validation |
| CreateBidModal.FailureKeepsForm | packages/nextjs/app/governo/dashboard/components/ModalCriarLicitacao.tsx:107-111 | a non-OK answer keeps the form and invokes no callback |
| CreateBidPage.HandleSubmit | packages/nextjs/app/governo/criar-licitacao/page.tsx:53-62 | the errors are those of the seven required fields. The browser goes to the government dashboard exactly when none is missing |
| CreateBidPage.PageAcceptsWhatModalAccepts | packages/nextjs/app/governo/criar-licitacao/page.tsx:38-62 | every form the modal accepts, the page accepts too |
| CreateBidPage.CapacityOnlyMattersInModal | packages/nextjs/app/governo/criar-licitacao/page.tsx:38-51 | a form missing only the minimum capacity passes the page and fails the modal |
| BidLists.FieldMatches | packages/nextjs/app/licitacoes/page.tsx:95-98 | a field matches exactly when the lower-cased term occurs in the lower-cased field |
| BidLists.PublicFilter | packages/nextjs/app/licitacoes/page.tsx:94-103 | every listed bid comes from the list, contains the term (ignoring case) in its name, party or description, and has the selected status. Every such bid is listed |
| BidLists.GovernmentFilter | packages/nextjs/app/governo/licitacoes/page.tsx:62-66 | the same, with the name as the only searched field |
| BidLists.CountLabel | packages/nextjs/app/licitacoes/page.tsx:156 | the counter says "bid found" exactly for one result, and "bids found" otherwise |
| BidLists.FiltersKeepOrder | packages/nextjs/app/governo/licitacoes/page.tsx:62-66 | both listings keep the bids in their original order |
| BidLists.InitialListsShowEverything | packages/nextjs/app/licitacoes/page.tsx:80-103 | with the initial empty search and "all", every bid is listed |
| BidLists.SearchIgnoresCase | packages/nextjs/app/licitacoes/page.tsx:95-98 | a lower-cased term finds the same bids as the term itself |
| BidLists.StatusFilterNarrows | packages/nextjs/app/licitacoes/page.tsx:100 | choosing a status never lists more bids than "all" |
| BidLists.UnusedStatusListsNothing | packages/nextjs/app/licitacoes/page.tsx:100 | a status no bid has lists nothing |
| BidLists.PublicClosedIsEmpty | packages/nextjs/app/licitacoes/page.tsx:27-78 | the public sample has no closed bid, so the counter reads "bids found" |
| BidLists.GovernmentClosedIsSchool | packages/nextjs/app/governo/licitacoes/page.tsx:27-66 | in the government sample only the school renovation is closed, so the counter reads "bid found" |
| Proposals.Insert | packages/nextjs/app/governo/propostas/page.tsx:117 | inserting adds exactly the one proposal |
| Proposals.InsertKeepsRanked | packages/nextjs/app/governo/propostas/page.tsx:117 | inserting into a descending ranking yields a descending ranking |
| Proposals.SortByScore | packages/nextjs/app/governo/propostas/page.tsx:117 | the sort is a permutation of the proposals, in non-increasing score order |
| Proposals.InsertStable | packages/nextjs/app/governo/propostas/page.tsx:117 | the inserted proposal precedes the others of equal score |
| Proposals.SortIsStable | packages/nextjs/app/governo/propostas/page.tsx:117 | for every score, the proposals with that score keep their original relative order |
| Proposals.SortedProposals | packages/nextjs/app/governo/propostas/page.tsx:115-117 | nothing is ranked without a selected bid. Otherwise the ranking is a permutation of its proposals in descending score |
| Proposals.Position | packages/nextjs/app/governo/propostas/page.tsx:235-260 | positions are counted from one: position 1 is the first of the ranking and no other |
| Proposals.PositionsIncrease | packages/nextjs/app/governo/propostas/page.tsx:235-260 | a later place in the ranking shows a larger position, larger by the distance between the places |
| Proposals.BestProposalHasTopScore | packages/nextjs/app/governo/propostas/page.tsx:312-317 | the first proposal, marked best, belongs to the bid and has its highest score |
| Proposals.SortRankedIsIdentity | packages/nextjs/app/governo/propostas/page.tsx:117 | ranking an already ranked list changes nothing |
| Proposals.RankThree | packages/nextjs/app/governo/propostas/page.tsx:117 | three proposals whose last outscores the middle one but not the first are ranked first, last, middle |
| Proposals.InitialRanking | packages/nextjs/app/governo/propostas/page.tsx:38-117 | the page opens on the bridge bid, ranked by id as 1, 3, 2 |

## Left out

- `decodeToken` (utils/auth.ts) always returns null. It is a stub with no behaviour to model.
- The bid service and the wallet SDK wrapper are not part of this model. Their results enter as inputs.
- `console` output, `alert`, `confirm`'s dialog and the clipboard are not modelled. `confirm`'s answer is an input.
- React state batching and re-render timing are left out. Each handler's state updates are applied together, as one step.
- `initialize` sets `isLoading` around its nested calls. Those calls clear it again before `initialize` does. The model keeps only the final value.
- `initialize`'s catch is modelled only for the missing-address throw. Its default message "Erro ao inicializar" is never produced, because the nested calls catch their own rejections.
- `Number(...)`, `Date` parsing, `Math.floor` on floats, `Infinity` and the ETH-to-wei conversion through `1e18` are left out. They are floating-point, so their results are inputs.
- `toLowerCase` is modelled for ASCII and Latin-1 capitals only. Other scripts and special casings are outside the model.
- Addresses are sliced by code point. JavaScript slices by UTF-16 code unit, which differs only for characters above U+FFFF.
- `JSON.parse` results are taken to be records of the expected shape. A parse yielding `null` or a number is outside the model.
- The markup of every page is left out. So are the presentational pages (landing, profile selection, dashboards, bid detail) and the government layout.
- The modal's `!isOpen` early return is left out. It only hides the markup.
- The login page's mode buttons set the mode directly, without clearing the form. They are not modelled; the toggle link is.
- The create page's form has no minimum-capacity field. The shared form record carries one, which that page never edits.
- CertificatePage.SubmitCertificate: the time and CID of a submitted certificate are taken from the answer as given. Their types are not checked.

=== FILE: auth.dfy ===
/**
 * The session helpers: a bearer token under `authToken` and a role tag under
 * `userType` in browser storage, the predicates the guards read, logout and
 * the role-to-dashboard redirect.
 */
module Auth {
  import opened Optional
  import opened Storage

  const AuthTokenKey := "authToken"
  const UserTypeKey := "userType"

  const LoginPath := "/auth"
  const GovernoDashboard := "/governo/dashboard"
  const ParticipanteDashboard := "/participante/dashboard"

  /** The two roles a caller may store. */
  datatype UserType = Governo | Participante {
    function Tag(): string {
      match this
      case Governo => "governo"
      case Participante => "participante"
    }
  }

  /** Storage after an action, and the full-page navigation it started, if any. */
  datatype Effect = Effect(browser: Browser, navigation: Option<string>)

  function SetAuthToken(b: Browser, token: string): (r: Browser)
    ensures b.hasWindow ==> GetAuthToken(r) == Some(token)
    ensures !b.hasWindow ==> r == b
    ensures forall k :: k != AuthTokenKey ==> GetItem(r, k) == GetItem(b, k)
  {
    SetItem(b, AuthTokenKey, token)
  }

  function GetAuthToken(b: Browser): (r: Option<string>)
    ensures !b.hasWindow ==> r == None
    ensures b.hasWindow ==> (r.Some? <==> AuthTokenKey in b.store)
    ensures b.hasWindow && AuthTokenKey in b.store ==> r == Some(b.store[AuthTokenKey])
  {
    GetItem(b, AuthTokenKey)
  }

  /** Removes the token and the role tag, and nothing else. */
  function RemoveAuthToken(b: Browser): (r: Browser)
    ensures GetAuthToken(r) == None && GetUserType(r) == None
    ensures !b.hasWindow ==> r == b
    ensures b.hasWindow ==> r.store.Keys == b.store.Keys - {AuthTokenKey, UserTypeKey}
    ensures forall k :: k != AuthTokenKey && k != UserTypeKey ==> GetItem(r, k) == GetItem(b, k)
  {
    RemoveItem(RemoveItem(b, AuthTokenKey), UserTypeKey)
  }

  function SetUserType(b: Browser, u: UserType): (r: Browser)
    ensures b.hasWindow ==> GetUserType(r) == Some(u.Tag())
    ensures GetAuthToken(r) == GetAuthToken(b)
    ensures !b.hasWindow ==> r == b
    ensures forall k :: k != UserTypeKey ==> GetItem(r, k) == GetItem(b, k)
  {
    SetItem(b, UserTypeKey, u.Tag())
  }

  /** The stored role tag, returned as stored: the cast to `UserType` checks nothing. */
  function GetUserType(b: Browser): (r: Option<string>)
    ensures !b.hasWindow ==> r == None
    ensures b.hasWindow && UserTypeKey in b.store ==> r == Some(b.store[UserTypeKey])
    ensures b.hasWindow && UserTypeKey !in b.store ==> r == None
  {
    GetItem(b, UserTypeKey)
  }

  /** `!!getAuthToken()`: a token is stored and it is not the empty string. */
  predicate IsAuthenticated(b: Browser) {
    Truthy(GetAuthToken(b))
  }

  predicate IsGoverno(b: Browser) {
    GetUserType(b) == Some(Governo.Tag())
  }

  predicate IsParticipante(b: Browser) {
    GetUserType(b) == Some(Participante.Tag())
  }

  /** Clears the session, then navigates to the login page when there is a window. */
  function Logout(b: Browser): (e: Effect)
    ensures !IsAuthenticated(e.browser) && !IsGoverno(e.browser) && !IsParticipante(e.browser)
    ensures e.browser == RemoveAuthToken(b)
    ensures e.navigation == (if b.hasWindow then Some(LoginPath) else None)
  {
    Effect(RemoveAuthToken(b), if b.hasWindow then Some(LoginPath) else None)
  }

  /** The dashboard for the stored role; anything else, absence included, goes to the login page. */
  function RedirectToDashboard(b: Browser): (nav: Option<string>)
    ensures !b.hasWindow <==> nav == None
    ensures IsGoverno(b) ==> nav == Some(GovernoDashboard)
    ensures IsParticipante(b) ==> nav == Some(ParticipanteDashboard)
    ensures b.hasWindow && !IsGoverno(b) && !IsParticipante(b) ==> nav == Some(LoginPath)
  {
    var userType := GetUserType(b);
    if !b.hasWindow then None
    else if userType == Some("governo") then Some(GovernoDashboard)
    else if userType == Some("participante") then Some(ParticipanteDashboard)
    else Some(LoginPath)
  }

  // ---------------------------------------------------------------------------
  // Properties of the session

  /** Storing a token makes the session authenticated exactly when the token is non-empty. */
  lemma SetTokenAuthenticates(b: Browser, token: string)
    ensures IsAuthenticated(SetAuthToken(b, token)) <==> b.hasWindow && token != ""
  {
  }

  /** Setting the token leaves the role untouched, and setting the role leaves the token untouched. */
  lemma SetTokenKeepsRole(b: Browser, token: string, u: UserType)
    ensures GetUserType(SetAuthToken(b, token)) == GetUserType(b)
    ensures IsGoverno(SetAuthToken(b, token)) == IsGoverno(b)
    ensures IsAuthenticated(SetUserType(b, u)) == IsAuthenticated(b)
  {
  }

  /** Removing the session twice is removing it once. */
  lemma RemoveAuthTokenIdempotent(b: Browser)
    ensures RemoveAuthToken(RemoveAuthToken(b)) == RemoveAuthToken(b)
  {
    assert RemoveAuthToken(b).store == b.store - {AuthTokenKey, UserTypeKey} || !b.hasWindow;
  }

  /** The two roles exclude each other; an unrecognised tag is neither. */
  lemma RolesExclusive(b: Browser)
    ensures !(IsGoverno(b) && IsParticipante(b))
    ensures GetUserType(b).Some? && GetUserType(b).value != "governo" && GetUserType(b).value != "participante"
            ==> !IsGoverno(b) && !IsParticipante(b)
  {
  }

  /** Logging out twice leaves storage as logging out once. */
  lemma LogoutIdempotent(b: Browser)
    ensures Logout(Logout(b).browser) == Logout(b)
  {
    RemoveAuthTokenIdempotent(b);
  }
}

=== FILE: auth_page.dfy ===
/** The login / sign-up page: its form, the email check, validation, input handling and mode toggle. */
module AuthPage {
  import opened Optional
  import opened Text

  // ---------------------------------------------------------------------------
  // The email pattern /^[^\s@]+@[^\s@]+\.[^\s@]+$/

  /** One of the three parts the pattern requires: non-empty, no whitespace, no "@". */
  predicate IsPart(s: string) {
    |s| > 0 && forall i :: 0 <= i < |s| ==> !IsWhitespace(s[i]) && s[i] != '@'
  }

  /** The reference meaning of the pattern: local "@" domain "." suffix, each part well formed. */
  ghost predicate MatchesEmailPattern(s: string) {
    exists a: string, b: string, c: string :: s == a + "@" + b + "." + c && IsPart(a) && IsPart(b) && IsPart(c)
  }

  /** The position of the first "@", if any. */
  function IndexOfAt(s: string): (r: Option<nat>)
    ensures r.None? ==> forall i :: 0 <= i < |s| ==> s[i] != '@'
    ensures r.Some? ==> r.value < |s| && s[r.value] == '@' && forall i :: 0 <= i < r.value ==> s[i] != '@'
  {
    if s == [] then None
    else if s[0] == '@' then Some(0)
    else match IndexOfAt(s[1..])
      case None => None
      case Some(i) => Some(i + 1)
  }

  /** A "." with at least one character on each side. */
  predicate HasInnerDot(r: string) {
    exists j :: 0 < j < |r| - 1 && r[j] == '.'
  }

  /**
   * `validateEmail`: the text before the first "@" is a part, and the rest is
   * a part with an inner "." (the domain may itself contain dots).
   */
  function ValidateEmail(s: string): (ok: bool)
    ensures ok <==> MatchesEmailPattern(s)
  {
    var at := IndexOfAt(s);
    var ok := at.Some? && IsPart(s[..at.value]) && IsPart(s[at.value + 1..]) && HasInnerDot(s[at.value + 1..]);
    if ok then
      var rest := s[at.value + 1..];
      var j :| 0 < j < |rest| - 1 && rest[j] == '.';
      var a, b, c := s[..at.value], rest[..j], rest[j + 1..];
      assert IsPart(b) by {
        forall i | 0 <= i < |b| ensures !IsWhitespace(b[i]) && b[i] != '@' {
          assert b[i] == rest[i];
        }
      }
      assert IsPart(c) by {
        forall i | 0 <= i < |c| ensures !IsWhitespace(c[i]) && c[i] != '@' {
          assert c[i] == rest[j + 1 + i];
        }
      }
      assert rest == b + "." + c;
      assert s == a + "@" + b + "." + c;
      ok
    else
      assert !MatchesEmailPattern(s) by {
        if MatchesEmailPattern(s) {
          var a, b, c :| s == a + "@" + b + "." + c && IsPart(a) && IsPart(b) && IsPart(c);
          EmailPatternParts(s, a, b, c);
        }
      }
      ok
  }

  lemma EmailPatternParts(s: string, a: string, b: string, c: string)
    requires s == a + "@" + b + "." + c && IsPart(a) && IsPart(b) && IsPart(c)
    ensures IndexOfAt(s) == Some(|a|)
    ensures s[..|a|] == a && s[|a| + 1..] == b + "." + c
    ensures IsPart(b + "." + c) && HasInnerDot(b + "." + c)
  {
    assert s[|a|] == '@';
    assert forall i :: 0 <= i < |a| ==> s[i] == a[i];
    assert s[|a| + 1..] == b + "." + c;
    assert (b + "." + c)[|b|] == '.';
  }

  /** A value with whitespace anywhere, a leading space included, is not an email. */
  lemma WhitespaceIsNotEmail(s: string, i: nat)
    requires i < |s| && IsWhitespace(s[i])
    ensures !ValidateEmail(s)
  {
    var at := IndexOfAt(s);
    if at.Some? {
      var k := at.value;
      if i < k {
        assert s[..k][i] == s[i];
      } else if i > k {
        assert s[k + 1..][i - k - 1] == s[i];
      }
    }
  }

  /** "ana@gov.br" is an email. */
  lemma ExampleEmail()
    ensures ValidateEmail("ana@gov.br")
  {
    EmailPatternParts("ana@gov.br", "ana", "gov", "br");
  }

  /** Without a dot after the "@" the value is not an email. */
  lemma ExampleEmailWithoutDot()
    ensures !ValidateEmail("ana@govbr")
  {
    assert IndexOfAt("ana@govbr") == Some(3);
    assert "ana@govbr"[4..] == "govbr";
  }

  // ---------------------------------------------------------------------------
  // The form

  datatype Field = Name | Email | Password | ConfirmPassword

  /** The four text fields; the page keeps one record for the values and one for the errors. */
  datatype Fields = Fields(name: string, email: string, password: string, confirmPassword: string) {

    function Get(f: Field): string {
      match f
      case Name => name
      case Email => email
      case Password => password
      case ConfirmPassword => confirmPassword
    }

    function Set(f: Field, v: string): (r: Fields)
      ensures r.Get(f) == v
      ensures forall g :: g != f ==> r.Get(g) == Get(g)
    {
      match f
      case Name => this.(name := v)
      case Email => this.(email := v)
      case Password => this.(password := v)
      case ConfirmPassword => this.(confirmPassword := v)
    }
  }

  const Empty := Fields("", "", "", "")

  datatype PageState = PageState(isLogin: bool, form: Fields, errors: Fields)

  const InitialState := PageState(true, Empty, Empty)

  const MinPasswordLength := 6
  const AfterSubmit := "/selecionar-perfil"

  const NameRequired := "Name is required"
  const EmailRequired := "Email is required"
  const EmailInvalid := "Invalid email"
  const PasswordRequired := "Password is required"
  const PasswordTooShort := "Password must be at least 6 characters"
  const ConfirmRequired := "Please confirm your password"
  const PasswordsDiffer := "Passwords do not match"

  /**
   * `validateForm`: the error record and the validity flag. The email is
   * trimmed to test for presence but matched untrimmed; the password length
   * counts UTF-16 code units; the name and the confirmation are checked only
   * when signing up.
   */
  function ValidateForm(isLogin: bool, form: Fields): (r: (Fields, bool))
    ensures r.1 <==> r.0 == Empty
    ensures isLogin ==> r.0.name == "" && r.0.confirmPassword == ""
    ensures !isLogin ==> (r.0.name != "" <==> IsBlank(form.name))
    ensures r.0.email == EmailRequired <==> IsBlank(form.email)
    ensures r.0.email == EmailInvalid <==> !IsBlank(form.email) && !MatchesEmailPattern(form.email)
    ensures r.0.email == "" <==> !IsBlank(form.email) && MatchesEmailPattern(form.email)
    ensures r.0.password != "" <==> Utf16Length(form.password) < MinPasswordLength
    ensures !isLogin ==> (r.0.confirmPassword != "" <==> form.confirmPassword == "" || form.confirmPassword != form.password)
  {
    TrimEmptyIffBlank(form.name);
    TrimEmptyIffBlank(form.email);
    var name := if !isLogin && Trim(form.name) == "" then NameRequired else "";
    var email :=
      if Trim(form.email) == "" then EmailRequired
      else if !ValidateEmail(form.email) then EmailInvalid
      else "";
    var password :=
      if form.password == "" then PasswordRequired
      else if Utf16Length(form.password) < MinPasswordLength then PasswordTooShort
      else "";
    var confirm :=
      if isLogin then ""
      else if form.confirmPassword == "" then ConfirmRequired
      else if form.password != form.confirmPassword then PasswordsDiffer
      else "";
    var errors := Fields(name, email, password, confirm);
    (errors, errors == Empty)
  }

  /** `handleInputChange`: sets one field and clears that field's error only. */
  function HandleInputChange(s: PageState, f: Field, v: string): (s': PageState)
    ensures s'.isLogin == s.isLogin
    ensures s'.form.Get(f) == v && s'.errors.Get(f) == ""
    ensures forall g :: g != f ==> s'.form.Get(g) == s.form.Get(g) && s'.errors.Get(g) == s.errors.Get(g)
  {
    s.(form := s.form.Set(f, v), errors := s.errors.Set(f, ""))
  }

  /** `toggleMode`: flips the mode and empties every field and every error. */
  function ToggleMode(s: PageState): (s': PageState)
    ensures s'.isLogin == !s.isLogin
    ensures forall f :: s'.form.Get(f) == "" && s'.errors.Get(f) == ""
  {
    PageState(!s.isLogin, Empty, Empty)
  }

  /**
   * The forms the page accepts, stated field by field: a present email that
   * matches the pattern, a password of at least six code units, and when
   * signing up a present name and a confirmation equal to the password.
   */
  ghost predicate FormAcceptable(isLogin: bool, form: Fields) {
    && !IsBlank(form.email) && MatchesEmailPattern(form.email)
    && Utf16Length(form.password) >= MinPasswordLength
    && (isLogin || (!IsBlank(form.name) && form.confirmPassword != "" && form.confirmPassword == form.password))
  }

  /** `handleSubmit`: records the errors; a valid form navigates to profile selection in both modes. */
  function HandleSubmit(s: PageState): (r: (PageState, Option<string>))
    ensures r.0.form == s.form && r.0.isLogin == s.isLogin
    ensures r.1.Some? <==> FormAcceptable(s.isLogin, s.form)
    ensures r.1.Some? ==> r.1.value == AfterSubmit && r.0.errors == Empty
    ensures r.1.None? ==> r.0.errors == ValidateForm(s.isLogin, s.form).0
  {
    var (errors, valid) := ValidateForm(s.isLogin, s.form);
    (s.(errors := errors), if valid then Some(AfterSubmit) else None)
  }

  // ---------------------------------------------------------------------------
  // Properties of the page

  /** Submission records exactly the errors `validateForm` finds, and navigates exactly when it accepts. */
  lemma SubmitAgreesWithValidation(s: PageState)
    ensures HandleSubmit(s).0.errors == ValidateForm(s.isLogin, s.form).0
    ensures HandleSubmit(s).1.Some? <==> ValidateForm(s.isLogin, s.form).1
  {
  }

  /** A leading space passes the presence check but fails the pattern. */
  lemma LeadingSpaceIsInvalidEmail(isLogin: bool, form: Fields)
    requires |form.email| > 1 && form.email[0] == ' ' && !IsWhitespace(form.email[1])
    ensures ValidateForm(isLogin, form).0.email == EmailInvalid
  {
    WhitespaceIsNotEmail(form.email, 0);
  }

  /** Two togglings bring the mode back, with an empty form. */
  lemma ToggleTwice(s: PageState)
    ensures ToggleMode(ToggleMode(s)) == s.(form := Empty, errors := Empty)
  {
  }

  /** A sign-in needs only an email and a password; the other two fields are ignored. */
  lemma LoginIgnoresNameAndConfirmation(form: Fields, name: string, confirm: string)
    ensures ValidateForm(true, form).1 == ValidateForm(true, form.(name := name, confirmPassword := confirm)).1
  {
  }
}

=== FILE: base_account.dfy ===
/**
 * The wallet account-link hook: connect the universal account, look up the
 * application's sub-account, create one when none exists, send calls from the
 * sub-account, disconnect, and restore the addresses from storage on mount.
 *
 * The wallet provider is an oracle: each request's answer is an input. The
 * hook keeps whatever the provider returns — addresses are neither trimmed,
 * lower-cased nor checked — and it never rolls back: the universal address
 * is stored before the sub-account steps run.
 */
module BaseAccount {
  import opened Optional
  import opened Storage
  import Hex

  const UniversalAddressKey := "universalAddress"
  const SubAccountKey := "subAccount"

  const ConnectFailed := "Erro ao conectar conta"
  const CheckFailed := "Erro ao verificar sub account"
  const CreateFailed := "Erro ao criar sub account"
  const SendFailed := "Erro ao enviar transação"
  const UniversalMissing := "Falha ao conectar conta universal"
  const NotConfigured := "Sub Account não está configurada"

  /** The defaults of `sendTransaction`'s `value` and `chainId` parameters (Base Sepolia). */
  const DefaultValue := "0x0"
  const DefaultChainId := 84532

  /** A sub-account record as the provider returns it; `kind` is its `type` field. */
  datatype SubAccount = SubAccount(address: string, kind: string)

  /** The hook's five state cells. */
  datatype LinkState = LinkState(
    universalAddress: Option<string>,
    subAccount: Option<SubAccount>,
    isConnected: bool,
    isLoading: bool,
    error: Option<string>)

  const InitialState := LinkState(None, None, false, false, None)

  /** The hook's state together with the browser it writes to. */
  datatype World = World(state: LinkState, browser: Browser)

  /**
   * A provider answer: a payload, or a rejection. A rejection carries the
   * message when the thrown value was an `Error`, and nothing otherwise.
   */
  datatype Reply<T> = Ok(payload: T) | Fail(message: Option<string>)

  /** One call inside a `wallet_sendCalls` batch. */
  datatype Call = Call(to: string, data: string, value: string)

  /** The requests the hook sends to the provider. */
  datatype Request =
    | RequestAccounts
    | GetSubAccounts(account: string, domain: string)
    | AddSubAccount
    | SendCalls(version: string, atomicRequired: bool, chainId: string, from: string, calls: seq<Call>)

  /** `JSON.stringify` and `JSON.parse` of sub-account records; `decode` yields None where parsing throws. */
  datatype Json = Json(encode: SubAccount -> string, decode: string -> Option<SubAccount>)

  ghost predicate RoundTrips(json: Json) {
    forall a :: json.decode(json.encode(a)) == Some(a)
  }

  /** The outcome of one hook operation: the new world, the value returned, the requests sent. */
  datatype Step<T> = Step(world: World, result: Option<T>, requests: seq<Request>)

  /** The message a rejection is reported with: the `Error`'s message, or the operation's default. */
  function Message(message: Option<string>, default: string): string {
    message.GetOr(default)
  }

  /** How `localStorage.setItem` stores `undefined`: as the text "undefined". */
  function StoredText(v: Option<string>): string {
    match v
    case Some(s) => s
    case None => "undefined"
  }

  /** A rejected request: only the error changes. */
  function Failed(w: World, message: Option<string>, default: string): (w': World)
    ensures w'.browser == w.browser
    ensures w'.state.universalAddress == w.state.universalAddress
    ensures w'.state.subAccount == w.state.subAccount
    ensures w'.state.isConnected == w.state.isConnected
    ensures !w'.state.isLoading
    ensures message.Some? ==> w'.state.error == message
    ensures message.None? ==> w'.state.error == Some(default)
  {
    World(w.state.(isLoading := false, error := Some(Message(message, default))), w.browser)
  }

  // ---------------------------------------------------------------------------
  // The operations

  /**
   * `connectUniversalAccount`: the first account becomes the universal address
   * and is stored as returned. An empty list leaves the address undefined
   * while still marking the hook connected.
   */
  function ConnectUniversalAccount(w: World, reply: Reply<seq<string>>): (r: Step<string>)
    ensures r.requests == [RequestAccounts]
    ensures !r.world.state.isLoading
    ensures reply.Ok? && |reply.payload| > 0 ==>
      && r.result == Some(reply.payload[0])
      && r.world.state.universalAddress == Some(reply.payload[0])
      && r.world.state.isConnected
      && r.world.state.error == None
      && r.world.state.subAccount == w.state.subAccount
      && r.world.browser == SetItem(w.browser, UniversalAddressKey, reply.payload[0])
    ensures reply.Fail? ==>
      && r.result == None
      && r.world == Failed(w, reply.message, ConnectFailed)
  {
    match reply
    case Fail(message) =>
      Step(Failed(w, message, ConnectFailed), None, [RequestAccounts])
    case Ok(accounts) =>
      var address := if |accounts| > 0 then Some(accounts[0]) else None;
      var state := w.state.(universalAddress := address, isConnected := true, isLoading := false, error := None);
      Step(World(state, SetItem(w.browser, UniversalAddressKey, StoredText(address))), address, [RequestAccounts])
  }

  /**
   * `checkExistingSubAccount`: asks for the sub-accounts of `universal` under
   * the page's origin and adopts and stores the first one, if any.
   */
  function CheckExistingSubAccount(w: World, universal: string, origin: string, reply: Reply<seq<SubAccount>>, json: Json)
    : (r: Step<SubAccount>)
    ensures r.requests == [GetSubAccounts(universal, if w.browser.hasWindow then origin else "")]
    ensures !r.world.state.isLoading
    ensures r.world.state.universalAddress == w.state.universalAddress
    ensures r.world.state.isConnected == w.state.isConnected
    ensures reply.Ok? && |reply.payload| > 0 ==>
      && r.result == Some(reply.payload[0])
      && r.world.state.subAccount == Some(reply.payload[0])
      && r.world.state.error == None
      && r.world.browser == SetItem(w.browser, SubAccountKey, json.encode(reply.payload[0]))
    ensures reply.Ok? && |reply.payload| == 0 ==>
      && r.result == None
      && r.world == World(w.state.(isLoading := false, error := None), w.browser)
    ensures reply.Fail? ==>
      && r.result == None
      && r.world == Failed(w, reply.message, CheckFailed)
  {
    var request := GetSubAccounts(universal, if w.browser.hasWindow then origin else "");
    match reply
    case Fail(message) =>
      Step(Failed(w, message, CheckFailed), None, [request])
    case Ok(subAccounts) =>
      if |subAccounts| > 0 then
        var existing := subAccounts[0];
        var state := w.state.(subAccount := Some(existing), isLoading := false, error := None);
        Step(World(state, SetItem(w.browser, SubAccountKey, json.encode(existing))), Some(existing), [request])
      else
        Step(World(w.state.(isLoading := false, error := None), w.browser), None, [request])
  }

  /** `createSubAccount`: adopts and stores the sub-account the provider created. */
  function CreateSubAccount(w: World, reply: Reply<SubAccount>, json: Json): (r: Step<SubAccount>)
    ensures r.requests == [AddSubAccount]
    ensures !r.world.state.isLoading
    ensures r.world.state.universalAddress == w.state.universalAddress
    ensures r.world.state.isConnected == w.state.isConnected
    ensures reply.Ok? ==>
      && r.result == Some(reply.payload)
      && r.world.state.subAccount == Some(reply.payload)
      && r.world.state.error == None
      && r.world.browser == SetItem(w.browser, SubAccountKey, json.encode(reply.payload))
    ensures reply.Fail? ==>
      && r.result == None
      && r.world == Failed(w, reply.message, CreateFailed)
  {
    match reply
    case Fail(message) =>
      Step(Failed(w, message, CreateFailed), None, [AddSubAccount])
    case Ok(created) =>
      var state := w.state.(subAccount := Some(created), isLoading := false, error := None);
      Step(World(state, SetItem(w.browser, SubAccountKey, json.encode(created))), Some(created), [AddSubAccount])
  }

  /**
   * `initialize`: connect, then look up, then create when the lookup gave
   * nothing. The result is true as soon as the universal account connected,
   * whatever happened to the sub-account.
   */
  function Initialize(
    w: World, origin: string,
    connectReply: Reply<seq<string>>, checkReply: Reply<seq<SubAccount>>, createReply: Reply<SubAccount>,
    json: Json): (r: Step<bool>)
    ensures r.result.Some?
    ensures !r.world.state.isLoading
    ensures |r.requests| >= 1 && r.requests[0] == RequestAccounts
    ensures r.result == Some(Truthy(ConnectUniversalAccount(w, connectReply).result))
  {
    var w0 := World(w.state.(isLoading := true, error := None), w.browser);
    var connected := ConnectUniversalAccount(w0, connectReply);
    if !Truthy(connected.result) then
      var state := connected.world.state.(isLoading := false, error := Some(UniversalMissing));
      Step(World(state, connected.world.browser), Some(false), connected.requests)
    else
      var checked := CheckExistingSubAccount(connected.world, connected.result.value, origin, checkReply, json);
      if checked.result.None? then
        var created := CreateSubAccount(checked.world, createReply, json);
        Step(created.world, Some(true), connected.requests + checked.requests + created.requests)
      else
        Step(checked.world, Some(true), connected.requests + checked.requests)
  }

  /** The outcome of `sendTransaction`: it throws, or it returns the calls id (null on rejection). */
  datatype SendOutcome = Thrown(message: string) | Returned(callsId: Option<string>)

  /** The single request `sendTransaction` makes for a configured sub-account. */
  function SendRequest(sub: SubAccount, to: string, data: string, value: string, chainId: int): Request {
    SendCalls("2.0", true, "0x" + Hex.ToString16(chainId), sub.address, [Call(to, data, value)])
  }

  /**
   * `sendTransaction`: without a sub-account it throws before any request;
   * otherwise one batch with one call is sent from the sub-account.
   */
  function SendTransaction(w: World, to: string, data: string, value: string, chainId: int, reply: Reply<string>)
    : (r: (World, SendOutcome, seq<Request>))
    ensures w.state.subAccount.None? ==> r == (w, Thrown(NotConfigured), [])
    ensures w.state.subAccount.Some? ==>
      && r.2 == [SendRequest(w.state.subAccount.value, to, data, value, chainId)]
      && r.0.browser == w.browser
      && r.0.state.subAccount == w.state.subAccount
      && r.0.state.universalAddress == w.state.universalAddress
      && r.0.state.isConnected == w.state.isConnected
      && !r.0.state.isLoading
      && (reply.Ok? ==> r.1 == Returned(Some(reply.payload)) && r.0.state.error == None)
      && (reply.Fail? ==> r.1 == Returned(None) && r.0.state.error == Some(Message(reply.message, SendFailed)))
  {
    match w.state.subAccount
    case None => (w, Thrown(NotConfigured), [])
    case Some(sub) =>
      var request := SendRequest(sub, to, data, value, chainId);
      match reply
      case Ok(id) => (World(w.state.(isLoading := false, error := None), w.browser), Returned(Some(id)), [request])
      case Fail(message) => (Failed(w, message, SendFailed), Returned(None), [request])
  }

  /** `disconnect`: forgets both addresses and removes exactly their two storage keys. */
  function Disconnect(w: World): (w': World)
    ensures w'.state.universalAddress == None && w'.state.subAccount == None
    ensures !w'.state.isConnected && w'.state.error == None
    ensures w'.state.isLoading == w.state.isLoading
    ensures GetItem(w'.browser, UniversalAddressKey) == None && GetItem(w'.browser, SubAccountKey) == None
    ensures forall k :: k != UniversalAddressKey && k != SubAccountKey ==> GetItem(w'.browser, k) == GetItem(w.browser, k)
  {
    var state := w.state.(universalAddress := None, subAccount := None, isConnected := false, error := None);
    World(state, RemoveItem(RemoveItem(w.browser, UniversalAddressKey), SubAccountKey))
  }

  /**
   * The mount effect: a non-empty stored universal address makes the hook
   * connected; a non-empty stored sub-account is adopted when it parses.
   */
  function Restore(w: World, json: Json): (w': World)
    ensures w'.browser == w.browser
    ensures w'.state.isLoading == w.state.isLoading && w'.state.error == w.state.error
    ensures Truthy(GetItem(w.browser, UniversalAddressKey)) ==>
      w'.state.universalAddress == GetItem(w.browser, UniversalAddressKey) && w'.state.isConnected
    ensures !Truthy(GetItem(w.browser, UniversalAddressKey)) ==>
      w'.state.universalAddress == w.state.universalAddress && w'.state.isConnected == w.state.isConnected
    ensures (!Truthy(GetItem(w.browser, SubAccountKey))
             || json.decode(GetItem(w.browser, SubAccountKey).value).None?) ==>
      w'.state.subAccount == w.state.subAccount
    ensures Truthy(GetItem(w.browser, SubAccountKey)) && json.decode(GetItem(w.browser, SubAccountKey).value).Some? ==>
      w'.state.subAccount == json.decode(GetItem(w.browser, SubAccountKey).value)
  {
    var savedUniversal := GetItem(w.browser, UniversalAddressKey);
    var savedSub := GetItem(w.browser, SubAccountKey);
    var s1 := if Truthy(savedUniversal) then w.state.(universalAddress := savedUniversal, isConnected := true) else w.state;
    var s2 := if Truthy(savedSub) && json.decode(savedSub.value).Some? then s1.(subAccount := json.decode(savedSub.value)) else s1;
    World(s2, w.browser)
  }

  // ---------------------------------------------------------------------------
  // Properties of the flow

  /** A failed connect leaves the addresses, the connection flag and storage as they were. */
  lemma {:induction false} ConnectFailureKeepsLink(w: World, message: Option<string>)
    ensures var r := ConnectUniversalAccount(w, Fail(message));
      && r.world.state.universalAddress == w.state.universalAddress
      && r.world.state.subAccount == w.state.subAccount
      && r.world.state.isConnected == w.state.isConnected
      && r.world.browser == w.browser
      && r.world.state.error == Some(message.GetOr(ConnectFailed))
  {
  }

  /** An empty account list: the hook says connected, holds no address and stores the text "undefined". */
  lemma ConnectWithNoAccounts(w: World)
    requires w.browser.hasWindow
    ensures var r := ConnectUniversalAccount(w, Ok([]));
      && r.result == None
      && r.world.state.isConnected
      && r.world.state.universalAddress == None
      && GetItem(r.world.browser, UniversalAddressKey) == Some("undefined")
  {
  }

  /** ... and on the next mount that text is taken for an address. */
  lemma NoAccountsRestoresUndefined(w: World, json: Json)
    requires w.browser.hasWindow
    ensures var mounted := Restore(World(InitialState, ConnectUniversalAccount(w, Ok([])).world.browser), json);
      mounted.state.isConnected && mounted.state.universalAddress == Some("undefined")
  {
  }

  /** When connect yields no usable address, initialize fails with its own message and asks for nothing else. */
  lemma InitializeWithoutUniversal(
    w: World, origin: string,
    connectReply: Reply<seq<string>>, checkReply: Reply<seq<SubAccount>>, createReply: Reply<SubAccount>, json: Json)
    requires !Truthy(ConnectUniversalAccount(w, connectReply).result)
    ensures var r := Initialize(w, origin, connectReply, checkReply, createReply, json);
      && r.result == Some(false)
      && r.world.state.error == Some(UniversalMissing)
      && r.requests == [RequestAccounts]
  {
  }

  /**
   * After a successful connect, a sub-account is created exactly when the
   * lookup returned nothing — an empty list or a rejected lookup — and the
   * result is true either way.
   */
  lemma InitializeCreatesOnlyWhenNoneFound(
    w: World, origin: string, accounts: seq<string>,
    checkReply: Reply<seq<SubAccount>>, createReply: Reply<SubAccount>, json: Json)
    requires |accounts| > 0 && accounts[0] != ""
    ensures var r := Initialize(w, origin, Ok(accounts), checkReply, createReply, json);
      var lookupFound := checkReply.Ok? && |checkReply.payload| > 0;
      && r.result == Some(true)
      && r.requests[1] == GetSubAccounts(accounts[0], if w.browser.hasWindow then origin else "")
      && (AddSubAccount in r.requests <==> !lookupFound)
      && (lookupFound ==> r.world.state.subAccount == Some(checkReply.payload[0]))
      && (!lookupFound && createReply.Ok? ==> r.world.state.subAccount == Some(createReply.payload))
      && r.world.state.universalAddress == Some(accounts[0])
      && r.world.state.isConnected
  {
  }

  /** A failed creation after a successful connect still reports success, with the creation's error. */
  lemma InitializeTrueDespiteFailedCreate(
    w: World, origin: string, accounts: seq<string>, message: Option<string>, json: Json)
    requires |accounts| > 0 && accounts[0] != ""
    ensures var r := Initialize(w, origin, Ok(accounts), Ok([]), Fail(message), json);
      && r.result == Some(true)
      && r.world.state.subAccount == w.state.subAccount
      && r.world.state.error == Some(message.GetOr(CreateFailed))
      && GetItem(r.world.browser, UniversalAddressKey) == (if w.browser.hasWindow then Some(accounts[0]) else None)
  {
  }

  /** With the defaults, the chain id is sent as "0x14a34" and the value as "0x0". */
  lemma SendWithDefaults(w: World, to: string, data: string, reply: Reply<string>)
    requires w.state.subAccount.Some?
    ensures SendTransaction(w, to, data, DefaultValue, DefaultChainId, reply).2
      == [SendCalls("2.0", true, "0x14a34", w.state.subAccount.value.address, [Call(to, data, "0x0")])]
  {
    DefaultChainIdText();
  }

  lemma DefaultChainIdText()
    ensures "0x" + Hex.ToString16(DefaultChainId) == "0x14a34"
  {
    var text := Hex.ToString16(84532);
    Hex.BaseSepoliaChainId();
    assert text == "14a34";
  }

  /** Disconnecting twice is disconnecting once. */
  lemma DisconnectIdempotent(w: World)
    ensures Disconnect(Disconnect(w)) == Disconnect(w)
  {
    var once := Disconnect(w).browser;
    if w.browser.hasWindow {
      assert RemoveItem(RemoveItem(once, UniversalAddressKey), SubAccountKey).store == once.store;
    }
  }

  /** A page mounted after a disconnect starts disconnected. */
  lemma RestoreAfterDisconnect(w: World, json: Json)
    ensures var mounted := Restore(World(InitialState, Disconnect(w).browser), json);
      && mounted.state.universalAddress == None
      && mounted.state.subAccount == None
      && !mounted.state.isConnected
  {
  }

  /**
   * A completed link survives a reload: mounting a fresh hook over the
   * storage `initialize` left behind restores the same universal address and
   * sub-account, provided JSON encoding round-trips.
   */
  lemma RestoreAfterInitialize(
    w: World, origin: string, accounts: seq<string>,
    checkReply: Reply<seq<SubAccount>>, createReply: Reply<SubAccount>, json: Json)
    requires RoundTrips(json)
    requires w.browser.hasWindow
    requires |accounts| > 0 && accounts[0] != ""
    requires (checkReply.Ok? && |checkReply.payload| > 0) || createReply.Ok?
    requires forall a :: json.encode(a) != ""
    ensures var linked := Initialize(w, origin, Ok(accounts), checkReply, createReply, json).world;
      var mounted := Restore(World(InitialState, linked.browser), json);
      && mounted.state.universalAddress == linked.state.universalAddress
      && mounted.state.subAccount == linked.state.subAccount
      && mounted.state.isConnected
  {
  }
}

=== FILE: base_account_connect.dfy ===
/** The wallet card: the connected view with both addresses, or the connect view. */
module BaseAccountConnect {
  import opened Optional
  import opened Text
  import opened BaseAccount

  const Ellipsis := "..."

  /** `formatAddress`: the first six characters, "...", the last four; there is no empty-string guard. */
  function FormatAddress(address: string): (r: string)
    ensures |r| == Min(6, |address|) + 3 + Min(4, |address|)
    ensures StartsWith(address, r[..Min(6, |address|)])
    ensures r[Min(6, |address|)..Min(6, |address|) + 3] == Ellipsis
    ensures r[|r| - Min(4, |address|)..] == address[|address| - Min(4, |address|)..]
    ensures |address| >= 6 ==> |r| == 13
  {
    Take(address, 6) + Ellipsis + TakeLast(address, 4)
  }

  /** What the card shows. */
  datatype View =
    | Connected(universalLabel: string, subLabel: string)
    | Connect(errorBanner: Option<string>, buttonDisabled: bool, buttonLabel: string)

  const ConnectingLabel := "Conectando..."
  const ConnectLabel := "Conectar BASE Account"

  /** The connected view needs the flag, a non-empty universal address and a sub-account. */
  predicate ShowsConnected(s: LinkState) {
    s.isConnected && Storage.Truthy(s.universalAddress) && s.subAccount.Some?
  }

  function Render(s: LinkState): (v: View)
    ensures v.Connected? <==> ShowsConnected(s)
    ensures v.Connected? ==> v == Connected(FormatAddress(s.universalAddress.value), FormatAddress(s.subAccount.value.address))
    ensures v.Connect? ==> (v.errorBanner.Some? <==> Storage.Truthy(s.error))
    ensures v.Connect? && v.errorBanner.Some? ==> v.errorBanner == s.error
    ensures v.Connect? ==> (v.buttonDisabled <==> s.isLoading)
    ensures v.Connect? ==> (v.buttonLabel == ConnectingLabel <==> s.isLoading)
  {
    if ShowsConnected(s) then
      Connected(FormatAddress(s.universalAddress.value), FormatAddress(s.subAccount.value.address))
    else
      Connect(
        if Storage.Truthy(s.error) then s.error else None,
        s.isLoading,
        if s.isLoading then ConnectingLabel else ConnectLabel)
  }

  /**
   * When `initialize` gets no usable universal address, the card shows the
   * failure message with the button enabled, unless the connect request was
   * rejected while the card already showed a link: then the earlier link is
   * still displayed and the message stays hidden.
   */
  lemma FailedInitializeShowsMessage(
    w: World, origin: string,
    connectReply: Reply<seq<string>>, checkReply: Reply<seq<SubAccount>>, createReply: Reply<SubAccount>, json: Json)
    requires !Storage.Truthy(ConnectUniversalAccount(w, connectReply).result)
    ensures var v := Render(Initialize(w, origin, connectReply, checkReply, createReply, json).world.state);
      && (connectReply.Ok? || !ShowsConnected(w.state) ==> v == Connect(Some(UniversalMissing), false, ConnectLabel))
      && (connectReply.Fail? && ShowsConnected(w.state) ==> v.Connected?)
  {
  }

  /** After a disconnect the card offers to connect again, with no error. */
  lemma DisconnectShowsConnectView(w: World)
    ensures Render(Disconnect(w).state) == Connect(None, w.state.isLoading, if w.state.isLoading then ConnectingLabel else ConnectLabel)
  {
  }
}

=== FILE: bid_form.dfy ===
/**
 * The bid-creation form shared by the dashboard's creation modal and the
 * stand-alone creation page: ten text fields, a record of per-field error
 * messages holding only the fields that failed, the required-field
 * validation and the input handler.
 */
module BidForm {
  import opened Text

  datatype BidField =
    | Name | ContractingParty | Description | InitialValue | ClosingDate
    | ClosingTime | Category | MinRequiredCapacity | Documents | Requirements

  datatype Form = Form(
    name: string, contractingParty: string, description: string, initialValue: string,
    closingDate: string, closingTime: string, category: string, minRequiredCapacity: string,
    documents: string, requirements: string)
  {
    function Get(f: BidField): string {
      match f
      case Name => name
      case ContractingParty => contractingParty
      case Description => description
      case InitialValue => initialValue
      case ClosingDate => closingDate
      case ClosingTime => closingTime
      case Category => category
      case MinRequiredCapacity => minRequiredCapacity
      case Documents => documents
      case Requirements => requirements
    }

    function Set(f: BidField, v: string): (r: Form)
      ensures r.Get(f) == v
      ensures forall g :: g != f ==> r.Get(g) == Get(g)
    {
      match f
      case Name => this.(name := v)
      case ContractingParty => this.(contractingParty := v)
      case Description => this.(description := v)
      case InitialValue => this.(initialValue := v)
      case ClosingDate => this.(closingDate := v)
      case ClosingTime => this.(closingTime := v)
      case Category => this.(category := v)
      case MinRequiredCapacity => this.(minRequiredCapacity := v)
      case Documents => this.(documents := v)
      case Requirements => this.(requirements := v)
    }
  }

  const EmptyForm := Form("", "", "", "", "", "", "", "", "", "")

  /** The error record: a field is a key only when a message was set for it. */
  type Errors = map<BidField, string>

  /** The three free-text fields are trimmed before the presence test; the others are not. */
  predicate TrimmedField(f: BidField) {
    f == Name || f == ContractingParty || f == Description
  }

  function Message(f: BidField): string {
    match f
    case Name => "Bid name is required"
    case ContractingParty => "Contracting party is required"
    case Description => "Description is required"
    case InitialValue => "Initial value is required"
    case ClosingDate => "Closing date is required"
    case ClosingTime => "Closing time is required"
    case Category => "Category is required"
    case MinRequiredCapacity => "Minimum capacity is required"
    case Documents => ""
    case Requirements => ""
  }

  /** The modal checks these fields, in this order. */
  const ModalRequired: seq<BidField> :=
    [Name, ContractingParty, Description, InitialValue, ClosingDate, ClosingTime, Category, MinRequiredCapacity]

  /** The page checks the same fields but the minimum capacity, which it has no input for. */
  const PageRequired: seq<BidField> :=
    [Name, ContractingParty, Description, InitialValue, ClosingDate, ClosingTime, Category]

  /** A field counts as absent when its value (trimmed, for the free-text fields) is the empty string. */
  predicate Absent(form: Form, f: BidField) {
    if TrimmedField(f) then Trim(form.Get(f)) == "" else form.Get(f) == ""
  }

  /** Absence stated without trimming: blank for the free-text fields, empty for the rest. */
  predicate Missing(form: Form, f: BidField) {
    if TrimmedField(f) then IsBlank(form.Get(f)) else form.Get(f) == ""
  }

  /** The errors the checks in `required` collect, one message per absent field. */
  function Collect(form: Form, required: seq<BidField>): (r: Errors)
    ensures forall f :: f in r <==> f in required && Missing(form, f)
    ensures forall f :: f in r ==> r[f] == Message(f)
  {
    if required == [] then map[]
    else
      var f := required[|required| - 1];
      var rest := Collect(form, required[..|required| - 1]);
      assert forall g :: g in required <==> g in required[..|required| - 1] || g == f;
      TrimEmptyIffBlank(form.Get(f));
      if Absent(form, f) then rest[f := Message(f)] else rest
  }

  /**
   * `validateForm`: the error record and whether it is empty. Exactly the
   * required fields that are missing carry a message, each its own.
   */
  function Validate(form: Form, required: seq<BidField>): (r: (Errors, bool))
    ensures forall f :: f in r.0 <==> f in required && Missing(form, f)
    ensures forall f :: f in r.0 ==> r.0[f] == Message(f)
    ensures r.1 <==> forall f :: f in required ==> !Missing(form, f)
  {
    var errors := Collect(form, required);
    assert (forall f :: f in required ==> !Missing(form, f)) ==> errors.Keys == {};
    (errors, |errors| == 0)
  }

  /**
   * `handleInputChange`: sets the field; its error is blanked only when it
   * holds a message, so the set of keys never changes.
   */
  function HandleInputChange(form: Form, errors: Errors, f: BidField, v: string): (r: (Form, Errors))
    ensures r.0.Get(f) == v
    ensures forall g :: g != f ==> r.0.Get(g) == form.Get(g)
    ensures r.1.Keys == errors.Keys
    ensures f in errors ==> r.1[f] == ""
    ensures forall g :: g in errors && g != f ==> r.1[g] == errors[g]
  {
    var errors' := if f in errors && errors[f] != "" then errors[f := ""] else errors;
    (form.Set(f, v), errors')
  }

  // ---------------------------------------------------------------------------
  // Properties of the validation

  /** The modal checks every field but the documents and the requirements. */
  lemma ModalRequiredFields(f: BidField)
    ensures f in ModalRequired <==> f != Documents && f != Requirements
  {
    match f
    case Documents =>
    case Requirements =>
    case Name => assert ModalRequired[0] == f;
    case ContractingParty => assert ModalRequired[1] == f;
    case Description => assert ModalRequired[2] == f;
    case InitialValue => assert ModalRequired[3] == f;
    case ClosingDate => assert ModalRequired[4] == f;
    case ClosingTime => assert ModalRequired[5] == f;
    case Category => assert ModalRequired[6] == f;
    case MinRequiredCapacity => assert ModalRequired[7] == f;
  }

  /** The page checks what the modal checks except the minimum capacity. */
  lemma PageRequiredFields(f: BidField)
    ensures f in PageRequired <==> f in ModalRequired && f != MinRequiredCapacity
  {
    assert ModalRequired == PageRequired + [MinRequiredCapacity];
  }

  lemma MapsAgree(a: Errors, b: Errors)
    requires forall f :: f in a <==> f in b
    requires forall f :: f in a ==> a[f] == b[f]
    ensures a == b
  {
  }

  /** The page's verdict is the modal's without the minimum-capacity check. */
  lemma PageDropsCapacityCheck(form: Form)
    ensures Validate(form, PageRequired).0 == Validate(form, ModalRequired).0 - {MinRequiredCapacity}
  {
    var page, modal := Validate(form, PageRequired).0, Validate(form, ModalRequired).0;
    var trimmed := modal - {MinRequiredCapacity};
    forall f ensures f in page <==> f in trimmed {
      PageRequiredFields(f);
    }
    forall f | f in page ensures page[f] == trimmed[f] {
    }
    MapsAgree(page, trimmed);
  }

  /** A name of spaces only is missing, however many spaces it holds. */
  lemma BlankNameRejected(form: Form, required: seq<BidField>)
    requires Name in required && form.name != "" && IsBlank(form.name)
    ensures !Validate(form, required).1
    ensures Validate(form, required).0[Name] == "Bid name is required"
  {
  }

  /** The emptied form fails on every required field. */
  lemma EmptyFormFailsEveryCheck(required: seq<BidField>)
    ensures Validate(EmptyForm, required).0.Keys == set f | f in required
  {
    assert forall f :: IsBlank(EmptyForm.Get(f));
  }

  /** Documents and requirements are never checked. */
  lemma OptionalFieldsNeverFail(form: Form)
    ensures Documents !in Validate(form, ModalRequired).0 && Requirements !in Validate(form, ModalRequired).0
  {
    ModalRequiredFields(Documents);
    ModalRequiredFields(Requirements);
  }
}

=== FILE: bid_lists.dfy ===
/**
 * The two bid listings: the public one, searched over name, contracting
 * party and description, and the government's, searched over the name
 * only. Both filter by status and show a result counter. The bids are the
 * pages' built-in sample data.
 */
module BidLists {
  import opened Text
  import opened Lists

  datatype Status = Open | Closed | UnderReview {
    function Tag(): string {
      match this
      case Open => "open"
      case Closed => "closed"
      case UnderReview => "under-review"
    }
  }

  /** The value the status selector starts with and that disables the status filter. */
  const AllStatuses := "all"

  datatype Bid = Bid(
    id: nat, name: string, contractingParty: string, description: string,
    initialValue: string, closingDate: string, status: Status)

  datatype GovernmentBid = GovernmentBid(
    id: nat, name: string, contractingParty: string,
    initialValue: string, closingDate: string, status: Status, proposals: nat)

  /** `field.toLowerCase().includes(term.toLowerCase())`. */
  function FieldMatches(field: string, term: string): (b: bool)
    ensures b <==> IsSubstring(ToLower(term), ToLower(field))
  {
    Includes(ToLower(field), ToLower(term))
  }

  predicate StatusMatches(filterStatus: string, s: Status) {
    filterStatus == AllStatuses || s.Tag() == filterStatus
  }

  predicate PublicKeep(term: string, filterStatus: string, b: Bid) {
    && (FieldMatches(b.name, term) || FieldMatches(b.contractingParty, term) || FieldMatches(b.description, term))
    && StatusMatches(filterStatus, b.status)
  }

  predicate GovernmentKeep(term: string, filterStatus: string, b: GovernmentBid) {
    FieldMatches(b.name, term) && StatusMatches(filterStatus, b.status)
  }

  /**
   * The public page's `filteredBids`: the bids one of whose three text fields
   * contains the term, ignoring case, and whose status is selected.
   */
  function PublicFilter(bids: seq<Bid>, term: string, filterStatus: string): (r: seq<Bid>)
    ensures forall i :: 0 <= i < |r| ==>
      && r[i] in bids
      && (|| IsSubstring(ToLower(term), ToLower(r[i].name))
          || IsSubstring(ToLower(term), ToLower(r[i].contractingParty))
          || IsSubstring(ToLower(term), ToLower(r[i].description)))
      && (filterStatus == AllStatuses || r[i].status.Tag() == filterStatus)
    ensures forall i :: 0 <= i < |bids| && PublicKeep(term, filterStatus, bids[i]) ==> bids[i] in r
  {
    Filter(bids, b => PublicKeep(term, filterStatus, b))
  }

  /** The government page's `filteredBids`: the name alone is searched. */
  function GovernmentFilter(bids: seq<GovernmentBid>, term: string, filterStatus: string): (r: seq<GovernmentBid>)
    ensures forall i :: 0 <= i < |r| ==>
      && r[i] in bids
      && IsSubstring(ToLower(term), ToLower(r[i].name))
      && (filterStatus == AllStatuses || r[i].status.Tag() == filterStatus)
    ensures forall i :: 0 <= i < |bids| && GovernmentKeep(term, filterStatus, bids[i]) ==> bids[i] in r
  {
    Filter(bids, b => GovernmentKeep(term, filterStatus, b))
  }

  /** The counter's noun: singular for exactly one result. */
  function CountLabel(n: nat): (noun: string)
    ensures noun == "bid found" <==> n == 1
    ensures noun == "bids found" <==> n != 1
  {
    if n == 1 then "bid found" else "bids found"
  }

  // ---------------------------------------------------------------------------
  // Properties of the listings

  /** Filtering only drops bids: the rest keep their order. */
  lemma FiltersKeepOrder(bids: seq<Bid>, gov: seq<GovernmentBid>, term: string, filterStatus: string)
    ensures IsSubsequence(PublicFilter(bids, term, filterStatus), bids)
    ensures IsSubsequence(GovernmentFilter(gov, term, filterStatus), gov)
  {
    FilterIsSubsequence(bids, b => PublicKeep(term, filterStatus, b));
    FilterIsSubsequence(gov, b => GovernmentKeep(term, filterStatus, b));
  }

  /** On first render — empty search, every status — both pages list all their bids. */
  lemma InitialListsShowEverything(bids: seq<Bid>, gov: seq<GovernmentBid>)
    ensures PublicFilter(bids, "", AllStatuses) == bids
    ensures GovernmentFilter(gov, "", AllStatuses) == gov
  {
    forall i | 0 <= i < |bids| ensures PublicKeep("", AllStatuses, bids[i]) {
      IncludesEmpty(ToLower(bids[i].name));
    }
    forall i | 0 <= i < |gov| ensures GovernmentKeep("", AllStatuses, gov[i]) {
      IncludesEmpty(ToLower(gov[i].name));
    }
    FilterAll(bids, b => PublicKeep("", AllStatuses, b));
    FilterAll(gov, b => GovernmentKeep("", AllStatuses, b));
  }

  /** The search ignores the case of the term: a lower-cased term finds the same bids. */
  lemma SearchIgnoresCase(bids: seq<Bid>, gov: seq<GovernmentBid>, term: string, filterStatus: string)
    ensures PublicFilter(bids, ToLower(term), filterStatus) == PublicFilter(bids, term, filterStatus)
    ensures GovernmentFilter(gov, ToLower(term), filterStatus) == GovernmentFilter(gov, term, filterStatus)
  {
    ToLowerIdempotent(term);
    FilterAgree(bids, b => PublicKeep(ToLower(term), filterStatus, b), b => PublicKeep(term, filterStatus, b));
    FilterAgree(gov, b => GovernmentKeep(ToLower(term), filterStatus, b), b => GovernmentKeep(term, filterStatus, b));
  }

  /** Choosing a status never shows more bids than "all". */
  lemma StatusFilterNarrows(bids: seq<Bid>, term: string, filterStatus: string)
    ensures |PublicFilter(bids, term, filterStatus)| <= |PublicFilter(bids, term, AllStatuses)|
  {
    FilterMonotone(bids, b => PublicKeep(term, filterStatus, b), b => PublicKeep(term, AllStatuses, b));
  }

  // ---------------------------------------------------------------------------
  // The sample data

  const PublicBids: seq<Bid> := [
    Bid(1, "Highway Bridge Construction", "City Hall of Belo Horizonte",
      "Construction of a highway bridge over the Velhas River, including environmental impact studies, executive design and construction execution. The bridge will be 450 meters long with capacity for heavy traffic.",
      "R$ 15.000.000,00", "December 15, 2024 at 14:00", Open),
    Bid(2, "Medical Equipment Supply", "Hospital das Cl\U{ED}nicas",
      "Acquisition of hospital medical equipment including 5 magnetic resonance imaging machines, 10 computed tomography scanners and ICU equipment. Includes installation, training and 3-year warranty.",
      "R$ 8.500.000,00", "December 22, 2024 at 16:30", Open),
    Bid(3, "Municipal School Renovation", "Education Department",
      "Complete renovation of Santos Dumont Municipal School, including modernization of classrooms, construction of computer lab, covered sports court and full accessibility.",
      "R$ 2.300.000,00", "January 10, 2025 at 10:00", Open),
    Bid(4, "LED Public Lighting System", "City Hall of S\U{E3}o Paulo",
      "Replacement of 50,000 public lighting points with LED technology throughout the city, including preventive and corrective maintenance for 5 years. System with remote control and monitoring.",
      "R$ 45.000.000,00", "December 28, 2024 at 11:00", Open),
    Bid(5, "Urban Road Paving", "City Hall of Contagem",
      "Asphalt paving of 25km of urban roads in various city neighborhoods, including drainage, horizontal and vertical signage, and accessible sidewalks according to current standards.",
      "R$ 12.750.000,00", "January 5, 2025 at 15:00", Open)
  ]

  /** The government sample; bid 2's party is stored with its accent mis-encoded, as in the page. */
  const GovernmentBids: seq<GovernmentBid> := [
    GovernmentBid(1, "Highway Bridge Construction", "City Hall of Belo Horizonte", "R$ 15.000.000,00", "15/12/2024", Open, 3),
    GovernmentBid(2, "Medical Equipment Supply", "Hospital das Cl\U{C3}\U{AD}nicas", "R$ 8.500.000,00", "22/12/2024", Open, 5),
    GovernmentBid(3, "Municipal School Renovation", "Education Department", "R$ 2.300.000,00", "10/11/2024", Closed, 8)
  ]

  /** A status no bid has lists nothing, whatever the search. */
  lemma UnusedStatusListsNothing(bids: seq<Bid>, term: string, s: Status)
    requires forall i :: 0 <= i < |bids| ==> bids[i].status != s
    ensures PublicFilter(bids, term, s.Tag()) == []
  {
    FilterNone(bids, b => PublicKeep(term, s.Tag(), b));
  }

  /** Every public sample bid is open, so asking for closed bids lists none: "0 bids found". */
  lemma PublicClosedIsEmpty(term: string)
    ensures PublicFilter(PublicBids, term, Closed.Tag()) == []
    ensures CountLabel(|PublicFilter(PublicBids, term, Closed.Tag())|) == "bids found"
  {
    assert forall i :: 0 <= i < |PublicBids| ==> PublicBids[i].status == Open;
    UnusedStatusListsNothing(PublicBids, term, Closed);
  }

  /** Of the government sample only the school renovation is closed: "1 bid found". */
  lemma GovernmentClosedIsSchool()
    ensures GovernmentFilter(GovernmentBids, "", Closed.Tag()) == [GovernmentBids[2]]
    ensures CountLabel(|GovernmentFilter(GovernmentBids, "", Closed.Tag())|) == "bid found"
  {
    var keep := b => GovernmentKeep("", Closed.Tag(), b);
    IncludesEmpty(ToLower(GovernmentBids[2].name));
    assert !keep(GovernmentBids[0]) && !keep(GovernmentBids[1]) && keep(GovernmentBids[2]);
    assert GovernmentBids[1..][1..] == [GovernmentBids[2]];
    assert GovernmentBids[2..][1..] == [];
  }
}

=== FILE: certificate_page.dfy ===
/**
 * The participant's digital-certificate page: form validation, the status
 * check against the backend on mount, submission and revocation. Storage is
 * read without a window guard, so it is a bare store here. The backend's
 * answers are inputs; `Number(...)` is given already parsed (None for NaN);
 * `JSON.stringify` / `JSON.parse` of certificates are the `CertJson` oracle.
 */
module CertificatePage {
  import opened Optional
  import opened Text
  import opened Storage
  import Cnpj

  const TokenKey := "token"
  const CertificateKey := "digitalCertificate"
  const IpfsGateway := "https://ipfs.io/ipfs/"
  const LoginPath := "/auth"

  const CnpjRequired := "CNPJ is required"
  const CnpjWrongLength := "CNPJ must have 14 digits"
  const ValueRequired := "Enterprise value is required"
  const ValueInvalid := "Enter a valid value"

  datatype Field = CnpjField | EnterpriseValueField

  /** The two text fields; one record holds the values, another the errors. */
  datatype CertForm = CertForm(cnpj: string, enterpriseValue: string) {
    function Get(f: Field): string {
      match f
      case CnpjField => cnpj
      case EnterpriseValueField => enterpriseValue
    }

    function Set(f: Field, v: string): (r: CertForm)
      ensures r.Get(f) == v
      ensures forall g :: g != f ==> r.Get(g) == Get(g)
    {
      match f
      case CnpjField => this.(cnpj := v)
      case EnterpriseValueField => this.(enterpriseValue := v)
    }
  }

  const EmptyForm := CertForm("", "")

  datatype Certificate = Certificate(cid: string, ipfsUrl: string, submittedAt: real, cnpj: string, enterpriseValue: real)

  datatype PageState = PageState(
    isSubmitting: bool,
    hasCertificate: bool,
    form: CertForm,
    errors: CertForm,
    certificateData: Option<Certificate>)

  const InitialState := PageState(false, false, EmptyForm, EmptyForm, None)

  /** `JSON.stringify` and `JSON.parse` of certificates; `decode` yields None where parsing throws. */
  datatype CertJson = CertJson(encode: Certificate -> string, decode: string -> Option<Certificate>)

  ghost predicate RoundTrips(json: CertJson) {
    forall c :: json.decode(json.encode(c)) == Some(c)
  }

  /**
   * `validateForm`: the CNPJ must clean to exactly fourteen digits, and the
   * enterprise value must be present and parse to a positive number.
   */
  function ValidateForm(form: CertForm, parsedValue: Option<real>): (r: (CertForm, bool))
    ensures r.0.cnpj == CnpjRequired <==> Cnpj.Clean(form.cnpj) == ""
    ensures r.0.cnpj == CnpjWrongLength <==> Cnpj.Clean(form.cnpj) != "" && |Cnpj.Clean(form.cnpj)| != Cnpj.CnpjDigits
    ensures r.0.cnpj == "" <==> |Cnpj.Clean(form.cnpj)| == Cnpj.CnpjDigits
    ensures r.0.enterpriseValue == "" <==> form.enterpriseValue != "" && parsedValue.Some? && parsedValue.value > 0.0
    ensures r.1 <==> r.0 == EmptyForm
  {
    var clean := Cnpj.Clean(form.cnpj);
    var cnpjError :=
      if clean == "" then CnpjRequired
      else if |clean| != Cnpj.CnpjDigits then CnpjWrongLength
      else "";
    var valueError :=
      if form.enterpriseValue == "" then ValueRequired
      else if parsedValue.None? || parsedValue.value <= 0.0 then ValueInvalid
      else "";
    var errors := CertForm(cnpjError, valueError);
    (errors, errors == EmptyForm)
  }

  /** `handleInputChange`: sets one field and clears that field's error only. */
  function HandleInputChange(s: PageState, f: Field, v: string): (s': PageState)
    ensures s'.form.Get(f) == v && s'.errors.Get(f) == ""
    ensures forall g :: g != f ==> s'.form.Get(g) == s.form.Get(g) && s'.errors.Get(g) == s.errors.Get(g)
    ensures s'.certificateData == s.certificateData && s'.hasCertificate == s.hasCertificate
    ensures s'.isSubmitting == s.isSubmitting
  {
    s.(form := s.form.Set(f, v), errors := s.errors.Set(f, ""))
  }

  // ---------------------------------------------------------------------------
  // The status check on mount

  /** The fields of the status answer the page reads; `has` and `status` are their truthiness. */
  datatype StatusBody = StatusBody(has: bool, status: bool, cid: string, cnpj: string, enterpriseValue: real)

  /**
   * The status request's fate: it threw, or it answered; `body` is None when
   * reading the answer as JSON threw.
   */
  datatype StatusFetch = FetchThrew | Answered(ok: bool, body: Option<StatusBody>)

  /** The certificate the page rebuilds from a positive status answer. */
  function FromStatus(body: StatusBody, nowMillis: int): (c: Certificate)
    ensures c.cid == body.cid && c.ipfsUrl == IpfsGateway + body.cid
    ensures c.cnpj == body.cnpj && c.enterpriseValue == body.enterpriseValue
    ensures c.submittedAt * 1000.0 == nowMillis as real
  {
    Certificate(body.cid, IpfsGateway + body.cid, nowMillis as real / 1000.0, body.cnpj, body.enterpriseValue)
  }

  /** The fallback after a failed check: adopt the stored certificate when one is stored and parses. */
  function RestoreFromStore(s: PageState, store: Store, json: CertJson): (s': PageState)
    ensures Truthy(Lookup(store, CertificateKey)) && json.decode(store[CertificateKey]).Some? ==>
      s' == s.(certificateData := json.decode(store[CertificateKey]), hasCertificate := true)
    ensures !(Truthy(Lookup(store, CertificateKey)) && json.decode(store[CertificateKey]).Some?) ==> s' == s
  {
    var stored := Lookup(store, CertificateKey);
    if Truthy(stored) && json.decode(stored.value).Some? then
      s.(certificateData := json.decode(stored.value), hasCertificate := true)
    else
      s
  }

  /**
   * `checkCertificateStatus`: without a stored `token` nothing happens and no
   * request is made; a non-OK answer changes nothing; an OK answer either
   * stores the certificate it describes or removes the stored one; a failure
   * falls back to the stored certificate.
   */
  function SyncStatus(s: PageState, store: Store, fetch: StatusFetch, nowMillis: int, json: CertJson)
    : (r: (PageState, Store, bool))
    ensures r.2 <==> Truthy(Lookup(store, TokenKey))
    ensures !r.2 ==> r.0 == s && r.1 == store
    ensures r.2 && fetch.Answered? && !fetch.ok ==> r.0 == s && r.1 == store
    ensures r.2 && fetch.Answered? && fetch.ok && fetch.body.Some? && fetch.body.value.has && fetch.body.value.status ==>
      var c := FromStatus(fetch.body.value, nowMillis);
      && r.0 == s.(certificateData := Some(c), hasCertificate := true)
      && r.1 == store[CertificateKey := json.encode(c)]
      && c.ipfsUrl == IpfsGateway + fetch.body.value.cid
    ensures r.2 && fetch.Answered? && fetch.ok && fetch.body.Some? && !(fetch.body.value.has && fetch.body.value.status) ==>
      r.0 == s.(certificateData := None, hasCertificate := false) && r.1 == store - {CertificateKey}
    ensures r.2 && (fetch.FetchThrew? || (fetch.ok && fetch.body.None?)) ==>
      r.0 == RestoreFromStore(s, store, json) && r.1 == store
  {
    if !Truthy(Lookup(store, TokenKey)) then (s, store, false)
    else match fetch
      case FetchThrew => (RestoreFromStore(s, store, json), store, true)
      case Answered(ok, body) =>
        if !ok then (s, store, true)
        else match body
          case None => (RestoreFromStore(s, store, json), store, true)
          case Some(b) =>
            if b.has && b.status then
              var c := FromStatus(b, nowMillis);
              (s.(certificateData := Some(c), hasCertificate := true), store[CertificateKey := json.encode(c)], true)
            else
              (s.(certificateData := None, hasCertificate := false), store - {CertificateKey}, true)
  }

  // ---------------------------------------------------------------------------
  // Submission and revocation

  /** The request body `handleSubmitCertificate` posts. */
  datatype SubmitRequest = SubmitRequest(token: string, cnpj: string, enterpriseValue: real)

  /** The fields of the submission answer the page reads. */
  datatype SubmitBody = SubmitBody(cid: string, viewOnIpfs: string, submittedAt: real)

  datatype SubmitFetch = SubmitThrew | SubmitAnswered(ok: bool, body: Option<SubmitBody>)

  datatype SubmitOutcome = SubmitOutcome(state: PageState, store: Store, request: Option<SubmitRequest>, navigation: Option<string>)

  /**
   * `handleSubmitCertificate`: an invalid form only shows its errors; a
   * missing token sends to the login page; otherwise the cleaned CNPJ and the
   * parsed value are posted and, on an OK answer, the certificate is stored.
   */
  function SubmitCertificate(s: PageState, store: Store, parsedValue: Option<real>, fetch: SubmitFetch, json: CertJson)
    : (r: SubmitOutcome)
    ensures r.state.errors == ValidateForm(s.form, parsedValue).0
    ensures !ValidateForm(s.form, parsedValue).1 ==>
      r == SubmitOutcome(s.(errors := r.state.errors), store, None, None)
    ensures ValidateForm(s.form, parsedValue).1 ==> !r.state.isSubmitting
    ensures r.request.Some? <==> ValidateForm(s.form, parsedValue).1 && Truthy(Lookup(store, TokenKey))
    ensures r.request.Some? ==> r.request.value.cnpj == Cnpj.Clean(s.form.cnpj) && |r.request.value.cnpj| == Cnpj.CnpjDigits
    ensures r.request.Some? ==>
      && Lookup(store, TokenKey).Some? && parsedValue.Some?
      && r.request.value == SubmitRequest(Lookup(store, TokenKey).value, Cnpj.Clean(s.form.cnpj), parsedValue.value)
    ensures r.navigation.Some? <==> ValidateForm(s.form, parsedValue).1 && !Truthy(Lookup(store, TokenKey))
    ensures r.navigation.Some? ==> r.navigation.value == LoginPath
    ensures ValidateForm(s.form, parsedValue).1 && !(r.request.Some? && fetch.SubmitAnswered? && fetch.ok && fetch.body.Some?) ==>
      r.state == s.(errors := r.state.errors, isSubmitting := false) && r.store == store
    ensures r.store != store ==> r.request.Some? && fetch.SubmitAnswered? && fetch.ok && fetch.body.Some?
    ensures r.request.Some? && fetch.SubmitAnswered? && fetch.ok && fetch.body.Some? ==>
      && r.state.hasCertificate
      && r.state.certificateData.Some?
      && r.state.certificateData.value.cnpj == Cnpj.Clean(s.form.cnpj)
      && r.state.certificateData == Some(Certificate(fetch.body.value.cid, fetch.body.value.viewOnIpfs,
           fetch.body.value.submittedAt, Cnpj.Clean(s.form.cnpj), parsedValue.value))
      && r.state.form == s.form
      && r.store == store[CertificateKey := json.encode(r.state.certificateData.value)]
  {
    var (errors, valid) := ValidateForm(s.form, parsedValue);
    var s1 := s.(errors := errors);
    if !valid then SubmitOutcome(s1, store, None, None)
    else
      var token := Lookup(store, TokenKey);
      if !Truthy(token) then SubmitOutcome(s1.(isSubmitting := false), store, None, Some(LoginPath))
      else
        var clean := Cnpj.Clean(s.form.cnpj);
        var request := SubmitRequest(token.value, clean, parsedValue.value);
        var done := s1.(isSubmitting := false);
        match fetch
        case SubmitThrew => SubmitOutcome(done, store, Some(request), None)
        case SubmitAnswered(ok, body) =>
          if !ok || body.None? then SubmitOutcome(done, store, Some(request), None)
          else
            var c := Certificate(body.value.cid, body.value.viewOnIpfs, body.value.submittedAt, clean, parsedValue.value);
            SubmitOutcome(done.(certificateData := Some(c), hasCertificate := true),
                          store[CertificateKey := json.encode(c)], Some(request), None)
  }

  /** `handleRevokeCertificate`: when confirmed, forgets the certificate and empties the form. */
  function RevokeCertificate(s: PageState, store: Store, confirmed: bool): (r: (PageState, Store))
    ensures !confirmed ==> r == (s, store)
    ensures confirmed ==>
      && CertificateKey !in r.1
      && (forall k :: k != CertificateKey ==> Lookup(r.1, k) == Lookup(store, k))
      && r.0.certificateData == None && !r.0.hasCertificate
      && r.0.form == EmptyForm
      && r.0.errors == s.errors
      && r.0.isSubmitting == s.isSubmitting
  {
    if confirmed then
      (s.(certificateData := None, hasCertificate := false, form := EmptyForm), store - {CertificateKey})
    else
      (s, store)
  }

  // ---------------------------------------------------------------------------
  // Properties of the page

  /** A CNPJ typed with its punctuation validates like the bare digits. */
  lemma PunctuationIgnored(form: CertForm, parsedValue: Option<real>)
    requires |form.cnpj| == Cnpj.CnpjDigits && AllDigits(form.cnpj)
    ensures ValidateForm(form.(cnpj := Cnpj.Format(form.cnpj)), parsedValue) == ValidateForm(form, parsedValue)
  {
    Cnpj.FormatCleanCnpj(form.cnpj);
    DigitsOnlyOfDigits(form.cnpj);
  }

  /**
   * A certificate confirmed by the backend survives a later failed check:
   * the next mount falls back to the stored copy, provided JSON round-trips.
   */
  lemma SyncedCertificateSurvivesOutage(
    s: PageState, store: Store, body: StatusBody, nowMillis: int, later: PageState, json: CertJson)
    requires RoundTrips(json)
    requires Truthy(Lookup(store, TokenKey)) && body.has && body.status
    requires json.encode(FromStatus(body, nowMillis)) != ""
    ensures var (synced, store') := (SyncStatus(s, store, Answered(true, Some(body)), nowMillis, json).0,
                                     SyncStatus(s, store, Answered(true, Some(body)), nowMillis, json).1);
      var again := SyncStatus(later, store', FetchThrew, nowMillis, json).0;
      again.certificateData == synced.certificateData && again.hasCertificate
  {
  }

  /** After a confirmed revocation a failed check restores nothing. */
  lemma RevokedCertificateNotRestored(s: PageState, store: Store, later: PageState, nowMillis: int, json: CertJson)
    ensures var store' := RevokeCertificate(s, store, true).1;
      SyncStatus(later, store', FetchThrew, nowMillis, json).0 == later
  {
  }
}

=== FILE: cnpj.dfy ===
/**
 * The Brazilian company registry number (CNPJ) as the certificate page
 * handles it: cleaned by dropping every non-digit, and displayed by the
 * replacement of /(\d{2})(\d{3})(\d{3})(\d{4})(\d{2})/ with "$1.$2.$3/$4-$5".
 */
module Cnpj {
  import opened Optional
  import opened Text
  import Lists

  const CnpjDigits := 14

  /** `replace(/\D/g, "")`. */
  function Clean(s: string): (r: string)
    ensures AllDigits(r)
    ensures |r| <= |s|
    ensures r == Lists.Filter(s, IsDigit)
  {
    DigitsOnlyIsFilter(s);
    DigitsOnly(s)
  }

  /** "$1.$2.$3/$4-$5" on a run of fourteen digits. */
  function Punctuate(d: string): (r: string)
    requires |d| == CnpjDigits
    ensures |r| == CnpjDigits + 4
    ensures r[2] == '.' && r[6] == '.' && r[10] == '/' && r[15] == '-'
  {
    d[..2] + "." + d[2..5] + "." + d[5..8] + "/" + d[8..12] + "-" + d[12..]
  }

  /** Fourteen consecutive digits start at `i`. */
  predicate RunAt(s: string, i: nat) {
    i + CnpjDigits <= |s| && AllDigits(s[i..i + CnpjDigits])
  }

  /** The leftmost start, at or after `from`, of fourteen consecutive digits: where the pattern matches. */
  function FirstRun(s: string, from: nat): (r: Option<nat>)
    ensures r.Some? ==> from <= r.value && RunAt(s, r.value)
    ensures r.Some? ==> forall k :: from <= k < r.value ==> !RunAt(s, k)
    ensures r.None? ==> forall k :: from <= k ==> !RunAt(s, k)
    decreases |s| - from
  {
    if from + CnpjDigits > |s| then None
    else if RunAt(s, from) then Some(from)
    else FirstRun(s, from + 1)
  }

  /** The display formatter: punctuates the first run of fourteen digits and leaves the rest alone. */
  function Format(s: string): (r: string)
    ensures FirstRun(s, 0).None? ==> r == s
    ensures FirstRun(s, 0).Some? ==>
      var i := FirstRun(s, 0).value;
      && |r| == |s| + 4
      && r[..i] == s[..i]
      && r[i + CnpjDigits + 4..] == s[i + CnpjDigits..]
      && r[i + 2] == '.' && r[i + 6] == '.' && r[i + 10] == '/' && r[i + 15] == '-'
      && DigitsOnly(r[i..i + CnpjDigits + 4]) == s[i..i + CnpjDigits]
    ensures DigitsOnly(r) == DigitsOnly(s)
  {
    match FirstRun(s, 0)
    case None => s
    case Some(i) =>
      var run := s[i..i + CnpjDigits];
      var r := s[..i] + Punctuate(run) + s[i + CnpjDigits..];
      RunDigitsKept(s, i);
      assert r[..i] == s[..i];
      assert r[i..i + CnpjDigits + 4] == Punctuate(run);
      assert r[i + CnpjDigits + 4..] == s[i + CnpjDigits..];
      r
  }

  /** Punctuating a run of fourteen digits in place keeps the digits of the whole string. */
  lemma RunDigitsKept(s: string, i: nat)
    requires RunAt(s, i)
    ensures DigitsOnly(Punctuate(s[i..i + CnpjDigits])) == s[i..i + CnpjDigits]
    ensures DigitsOnly(s[..i] + Punctuate(s[i..i + CnpjDigits]) + s[i + CnpjDigits..]) == DigitsOnly(s)
  {
    var run := s[i..i + CnpjDigits];
    PunctuateKeepsDigits(run);
    DigitsOnlyOfDigits(run);
    DigitsOnlyAppend(s[..i] + Punctuate(run), s[i + CnpjDigits..]);
    DigitsOnlyAppend(s[..i], Punctuate(run));
    DigitsOnlyAppend(s[..i] + run, s[i + CnpjDigits..]);
    DigitsOnlyAppend(s[..i], run);
    assert s == s[..i] + run + s[i + CnpjDigits..];
  }

  /** The punctuation adds no digit and drops none. */
  lemma PunctuateKeepsDigits(d: string)
    requires |d| == CnpjDigits && AllDigits(d)
    ensures DigitsOnly(Punctuate(d)) == d
  {
    DigitsOnlyAppend(d[..2] + "." + d[2..5] + "." + d[5..8] + "/" + d[8..12] + "-", d[12..]);
    DigitsOnlyAppend(d[..2] + "." + d[2..5] + "." + d[5..8] + "/" + d[8..12], "-");
    DigitsOnlyAppend(d[..2] + "." + d[2..5] + "." + d[5..8] + "/", d[8..12]);
    DigitsOnlyAppend(d[..2] + "." + d[2..5] + "." + d[5..8], "/");
    DigitsOnlyAppend(d[..2] + "." + d[2..5] + ".", d[5..8]);
    DigitsOnlyAppend(d[..2] + "." + d[2..5], ".");
    DigitsOnlyAppend(d[..2] + ".", d[2..5]);
    DigitsOnlyAppend(d[..2], ".");
    DigitsOnlyOfDigits(d[..2]);
    DigitsOnlyOfDigits(d[2..5]);
    DigitsOnlyOfDigits(d[5..8]);
    DigitsOnlyOfDigits(d[8..12]);
    DigitsOnlyOfDigits(d[12..]);
    assert d == d[..2] + d[2..5] + d[5..8] + d[8..12] + d[12..];
  }

  /** Formatting never changes the digits of a value: cleaning the display gives the cleaned value. */
  lemma CleanFormat(s: string)
    ensures Clean(Format(s)) == Clean(s)
  {
  }

  /** A cleaned fourteen-digit CNPJ is shown as dd.ddd.ddd/dddd-dd, and cleaning the display gives it back. */
  lemma FormatCleanCnpj(c: string)
    requires |c| == CnpjDigits && AllDigits(c)
    ensures Format(c) == Punctuate(c)
    ensures |Format(c)| == 18
    ensures Format(c)[2] == '.' && Format(c)[6] == '.' && Format(c)[10] == '/' && Format(c)[15] == '-'
    ensures Clean(Format(c)) == c
  {
    assert RunAt(c, 0) by {
      assert c[0..CnpjDigits] == c;
    }
    assert c[0..CnpjDigits] == c;
    CleanFormat(c);
    DigitsOnlyOfDigits(c);
  }

  lemma ExampleFormat()
    ensures Format("12345678000190") == "12.345.678/0001-90"
  {
    FormatCleanCnpj("12345678000190");
    ExamplePunctuate();
  }

  lemma ExamplePunctuate()
    ensures Punctuate("12345678000190") == "12.345.678/0001-90"
  {
    var c := "12345678000190";
    assert c[..2] == "12" && c[2..5] == "345" && c[5..8] == "678" && c[8..12] == "0001" && c[12..] == "90";
  }
}

=== FILE: create_bid_modal.dfy ===
/**
 * The dashboard's bid-creation modal and its submission. The clock, the
 * parse of the closing date and time, the float arithmetic that turns the
 * initial value into wei, and the backend's answer are inputs.
 */
module CreateBidModal {
  import opened Optional
  import opened Storage
  import opened BidForm

  const TokenKey := "token"

  datatype ModalState = ModalState(isSubmitting: bool, form: Form, errors: Errors)

  const InitialState := ModalState(false, EmptyForm, map[])

  /** The parent's callbacks the modal invokes, in the order invoked. */
  datatype Callback = OnSuccess | OnClose

  /**
   * The auction-creation request. `duration` is None when the closing date
   * does not parse, where JavaScript computes NaN; `minRequiredCapacity`
   * is `Number(...)` of the field, None for NaN.
   */
  datatype Payload = Payload(maxBudget: int, duration: Option<int>, minRequiredCapacity: Option<real>, description: string)

  /** The request's fate: it threw, or it answered and its body was (or was not) JSON. */
  datatype CreateFetch = CreateThrew | CreateAnswered(ok: bool, parsed: bool)

  /** What the submit handler computed from the form that the model takes as given. */
  datatype Inputs = Inputs(
    closingMillis: Option<int>,    // `new Date(date + "T" + time).getTime()`, None when invalid
    nowMillis: int,
    maxBudgetWei: Option<int>,     // `BigInt(Math.floor(Number(value) * 1e18))`, None when it throws
    capacity: Option<real>)

  datatype Outcome = Outcome(state: ModalState, request: Option<Payload>, callbacks: seq<Callback>)

  /** `Math.floor((closing - now) / 1000)`: whole seconds, rounded down (the divisor is positive). */
  function DurationSeconds(closingMillis: int, nowMillis: int): (d: int)
    ensures d * 1000 <= closingMillis - nowMillis < (d + 1) * 1000
  {
    (closingMillis - nowMillis) / 1000
  }

  /** The future-date guard: NaN compares false with zero, so an unparsable date passes it. */
  predicate DurationAccepted(duration: Option<int>) {
    duration.None? || duration.value > 0
  }

  /**
   * `handleSubmit`: validation, then the token, then the future-date guard,
   * then the wei conversion; on an OK answer the form is emptied and the
   * callbacks run. Every exit after validation leaves `isSubmitting` false.
   */
  function HandleSubmit(s: ModalState, store: Store, inputs: Inputs, fetch: CreateFetch, hasOnSuccess: bool)
    : (r: Outcome)
    ensures var (errors, valid) := Validate(s.form, ModalRequired);
      && r.state.errors == errors
      && (!valid ==> r == Outcome(s.(errors := errors), None, []))
      && (valid ==> !r.state.isSubmitting)
    ensures r.request.Some? <==>
      && Validate(s.form, ModalRequired).1
      && Truthy(Lookup(store, TokenKey))
      && (inputs.closingMillis.None? || inputs.closingMillis.value - inputs.nowMillis >= 1000)
      && inputs.maxBudgetWei.Some?
    ensures r.request.Some? ==>
      && r.request.value.description == s.form.description
      && (r.request.value.duration.Some? ==> r.request.value.duration.value > 0)
    ensures r.request.Some? ==>
      && inputs.maxBudgetWei.Some?
      && r.request.value == Payload(
           inputs.maxBudgetWei.value,
           if inputs.closingMillis.Some? then Some(DurationSeconds(inputs.closingMillis.value, inputs.nowMillis)) else None,
           inputs.capacity,
           s.form.description)
    ensures r.callbacks != [] <==> r.request.Some? && fetch == CreateAnswered(true, true)
    ensures r.callbacks != [] ==>
      && r.callbacks == (if hasOnSuccess then [OnSuccess, OnClose] else [OnClose])
      && r.state.form == EmptyForm
    ensures r.callbacks == [] ==> r.state.form == s.form
  {
    var (errors, valid) := Validate(s.form, ModalRequired);
    var s1 := s.(errors := errors);
    if !valid then Outcome(s1, None, [])
    else
      var done := s1.(isSubmitting := false);
      var token := Lookup(store, TokenKey);
      if !Truthy(token) then Outcome(done, None, [])
      else
        var duration :=
          if inputs.closingMillis.Some? then Some(DurationSeconds(inputs.closingMillis.value, inputs.nowMillis)) else None;
        if !DurationAccepted(duration) then Outcome(done, None, [])
        else if inputs.maxBudgetWei.None? then Outcome(done, None, [])
        else
          var payload := Payload(inputs.maxBudgetWei.value, duration, inputs.capacity, s.form.description);
          if fetch == CreateAnswered(true, true) then
            var callbacks := (if hasOnSuccess then [OnSuccess] else []) + [OnClose];
            Outcome(done.(form := EmptyForm), Some(payload), callbacks)
          else
            Outcome(done, Some(payload), [])
  }

  // ---------------------------------------------------------------------------
  // Properties of the modal

  /** The guard admits a parsed closing time exactly when it lies at least one second ahead. */
  lemma DurationPositiveIff(closingMillis: int, nowMillis: int)
    ensures DurationAccepted(Some(DurationSeconds(closingMillis, nowMillis))) <==> closingMillis - nowMillis >= 1000
  {
  }

  /** A closing time less than a second away is refused, a past one included. */
  lemma NearClosingRefused(s: ModalState, store: Store, inputs: Inputs, fetch: CreateFetch, hasOnSuccess: bool)
    requires inputs.closingMillis.Some? && inputs.closingMillis.value < inputs.nowMillis + 1000
    ensures HandleSubmit(s, store, inputs, fetch, hasOnSuccess).request.None?
    ensures HandleSubmit(s, store, inputs, fetch, hasOnSuccess).callbacks == []
  {
  }

  /** A closing date that does not parse slips past the guard with no duration, as written. */
  lemma UnparsableDatePassesGuard(s: ModalState, store: Store, inputs: Inputs, fetch: CreateFetch, hasOnSuccess: bool)
    requires Validate(s.form, ModalRequired).1 && Truthy(Lookup(store, TokenKey))
    requires inputs.closingMillis.None? && inputs.maxBudgetWei.Some?
    ensures HandleSubmit(s, store, inputs, fetch, hasOnSuccess).request.Some?
    ensures HandleSubmit(s, store, inputs, fetch, hasOnSuccess).request.value.duration.None?
  {
  }

  /** After a successful creation the modal's form is empty again, so an immediate resubmission fails validation. */
  lemma SuccessResetsForm(s: ModalState, store: Store, inputs: Inputs, hasOnSuccess: bool)
    requires HandleSubmit(s, store, inputs, CreateAnswered(true, true), hasOnSuccess).callbacks != []
    ensures var s' := HandleSubmit(s, store, inputs, CreateAnswered(true, true), hasOnSuccess).state;
      !Validate(s'.form, ModalRequired).1
  {
    var s' := HandleSubmit(s, store, inputs, CreateAnswered(true, true), hasOnSuccess).state;
    EmptyFormFailsEveryCheck(ModalRequired);
    assert Name in Validate(s'.form, ModalRequired).0;
  }

  /** A refused or failed request keeps what was typed and closes nothing. */
  lemma FailureKeepsForm(s: ModalState, store: Store, inputs: Inputs, ok: bool, hasOnSuccess: bool)
    requires !ok
    ensures HandleSubmit(s, store, inputs, CreateAnswered(ok, true), hasOnSuccess).state.form == s.form
    ensures HandleSubmit(s, store, inputs, CreateAnswered(ok, true), hasOnSuccess).callbacks == []
  {
  }
}

=== FILE: create_bid_page.dfy ===
/** The stand-alone bid-creation page: the same form, one check fewer, and no backend request. */
module CreateBidPage {
  import opened Optional
  import opened BidForm

  const AfterCreate := "/governo/dashboard"

  datatype PageState = PageState(form: Form, errors: Errors)

  const InitialState := PageState(EmptyForm, map[])

  /** `handleSubmit`: records the errors, and a valid form sends the browser to the government dashboard. */
  function HandleSubmit(s: PageState): (r: (PageState, Option<string>))
    ensures r.0.form == s.form
    ensures forall f :: f in r.0.errors <==> f in PageRequired && Missing(s.form, f)
    ensures r.1.Some? <==> forall f :: f in PageRequired ==> !Missing(s.form, f)
    ensures r.1.Some? ==> r.1.value == AfterCreate && r.0.errors == map[]
  {
    var (errors, valid) := Validate(s.form, PageRequired);
    (s.(errors := errors), if valid then Some(AfterCreate) else None)
  }

  /** The page accepts every form the modal would accept, and more: it never asks for a minimum capacity. */
  lemma PageAcceptsWhatModalAccepts(s: PageState)
    requires Validate(s.form, ModalRequired).1
    ensures HandleSubmit(s).1 == Some(AfterCreate)
  {
    forall f | f in PageRequired ensures !Missing(s.form, f) {
      PageRequiredFields(f);
    }
  }

  /** A form missing only its minimum capacity is accepted here though the modal refuses it. */
  lemma CapacityOnlyMattersInModal(s: PageState)
    requires s.form.minRequiredCapacity == ""
    requires forall f :: f in PageRequired ==> !Missing(s.form, f)
    ensures HandleSubmit(s).1.Some?
    ensures !Validate(s.form, ModalRequired).1
  {
    ModalRequiredFields(MinRequiredCapacity);
  }
}

=== FILE: governo_nav.dfy ===
/** The government section's navigation bar. */
module GovernoNav {
  import opened Optional
  import opened Text
  import opened Storage
  import Auth

  const DashboardHref := "/governo/dashboard"
  const BidsHref := "/governo/licitacoes"
  const ProposalsHref := "/governo/propostas"

  const Links: seq<string> := [DashboardHref, BidsHref, ProposalsHref]

  /** A link is active on its own path and on every path below it; a null path activates nothing. */
  predicate IsActive(pathname: Option<string>, href: string) {
    pathname.Some? && (pathname.value == href || StartsWith(pathname.value, href + "/"))
  }

  /** The logout button delegates to the session logout. */
  function HandleLogout(b: Browser): (e: Auth.Effect)
    ensures !Auth.IsAuthenticated(e.browser)
    ensures b.hasWindow ==> e.navigation == Some(Auth.LoginPath)
    ensures e == Auth.Logout(b)
  {
    Auth.Logout(b)
  }

  /** A sibling path that only shares text with a link, such as "/governo/dashboardx", is not under it. */
  lemma SiblingNotActive()
    ensures !IsActive(Some("/governo/dashboardx"), DashboardHref)
    ensures IsActive(Some("/governo/dashboard/x"), DashboardHref)
  {
    assert "/governo/dashboardx"[..|DashboardHref + "/"|] != DashboardHref + "/" by {
      assert "/governo/dashboardx"[18] != (DashboardHref + "/")[18];
    }
    assert "/governo/dashboard/x"[..|DashboardHref + "/"|] == DashboardHref + "/";
  }

  /** No path is active for two of the three links. */
  lemma {:induction false} AtMostOneActive(pathname: Option<string>, i: nat, j: nat)
    requires i < j < |Links|
    ensures !(IsActive(pathname, Links[i]) && IsActive(pathname, Links[j]))
  {
    if pathname.Some? {
      var p := pathname.value;
      // The three links first differ at index 9, and each has length at least 18.
      assert Links[i][9] != Links[j][9];
      if IsActive(pathname, Links[i]) {
        assert p[9] == Links[i][9] by {
          if p != Links[i] {
            assert p[..|Links[i] + "/"|] == Links[i] + "/";
            assert p[9] == (Links[i] + "/")[9];
          }
        }
      }
      if IsActive(pathname, Links[j]) {
        assert p[9] == Links[j][9] by {
          if p != Links[j] {
            assert p[..|Links[j] + "/"|] == Links[j] + "/";
            assert p[9] == (Links[j] + "/")[9];
          }
        }
      }
    }
  }
}

=== FILE: header.dfy ===
/** The site header: the signed-in user's wallet label and the dashboard link. */
module Header {
  import opened Optional
  import opened Text
  import opened Storage
  import Auth
  import BaseAccountConnect

  const UserKey := "user"

  /** `truncateAddress`: like the wallet card's formatter, except that "" stays "". */
  function TruncateAddress(address: string): (r: string)
    ensures address == "" <==> r == ""
    ensures address != "" ==> r == BaseAccountConnect.FormatAddress(address)
    ensures |address| >= 6 ==> |r| == 13 && r[..6] == address[..6] && r[6..9] == "..." && r[9..] == address[|address| - 4..]
  {
    if address == "" then "" else BaseAccountConnect.FormatAddress(address)
  }

  /** The dashboard link for the stored role tag; anything but "governo" gets the participant's. */
  function DashboardHref(userType: string): (href: string)
    ensures href == Auth.GovernoDashboard <==> userType == "governo"
    ensures href == Auth.GovernoDashboard || href == Auth.ParticipanteDashboard
  {
    if userType == "governo" then Auth.GovernoDashboard else Auth.ParticipanteDashboard
  }

  /** The fields of the stored `user` record the header reads. */
  datatype UserRecord = UserRecord(walletAddress: Option<string>)

  /** The header's state cells. */
  datatype HeaderState = HeaderState(isLoggedIn: bool, walletAddress: string, userType: string)

  const InitialState := HeaderState(false, "", "")

  /**
   * The mount effect: when signed in, the wallet address comes from the
   * stored `user` JSON (`parse` yields None where `JSON.parse` throws), and
   * the role tag from the session.
   */
  function Mount(b: Browser, parse: string -> Option<UserRecord>): (h: HeaderState)
    ensures h.isLoggedIn == Auth.IsAuthenticated(b)
    ensures !h.isLoggedIn ==> h == InitialState
    ensures h.isLoggedIn ==> h.userType == Auth.GetUserType(b).GetOr("")
    ensures h.walletAddress != "" ==>
      && h.isLoggedIn
      && Truthy(GetItem(b, UserKey))
      && parse(GetItem(b, UserKey).value) == Some(UserRecord(Some(h.walletAddress)))
  {
    if !Auth.IsAuthenticated(b) then
      InitialState
    else
      var user := GetItem(b, UserKey);
      var wallet :=
        if Truthy(user) && parse(user.value).Some? then parse(user.value).value.walletAddress.GetOr("")
        else "";
      HeaderState(true, wallet, Auth.GetUserType(b).GetOr(""))
  }

  /** A signed-in user whose record parses and names a wallet sees that wallet. */
  lemma MountReadsWallet(b: Browser, parse: string -> Option<UserRecord>, wallet: string)
    requires Auth.IsAuthenticated(b)
    requires Truthy(GetItem(b, UserKey)) && parse(GetItem(b, UserKey).value) == Some(UserRecord(Some(wallet)))
    ensures Mount(b, parse).walletAddress == wallet
  {
  }

}

=== FILE: hex.dfy ===
/** `Number.prototype.toString(16)` on integers: lower-case hexadecimal, a minus sign for negatives. */
module Hex {

  /** The digits `toString(16)` writes: `0`-`9` and lower-case `a`-`f`. */
  predicate IsHexDigit(c: char) {
    '0' <= c <= '9' || 'a' <= c <= 'f'
  }

  function DigitChar(d: nat): (c: char)
    requires d < 16
    ensures IsHexDigit(c)
    ensures c == '0' <==> d == 0
  {
    if d < 10 then ('0' as int + d) as char else ('a' as int + d - 10) as char
  }

  function DigitValue(c: char): (d: nat)
    requires IsHexDigit(c)
    ensures d < 16 && DigitChar(d) == c
    ensures forall e: nat :: e < 16 && DigitChar(e) == c ==> e == d
  {
    if '0' <= c <= '9' then c as int - '0' as int else c as int - 'a' as int + 10
  }

  /** The value a string of hexadecimal digits denotes. */
  function Value(s: string): nat
    requires forall i :: 0 <= i < |s| ==> IsHexDigit(s[i])
  {
    if s == [] then 0 else 16 * Value(s[..|s| - 1]) + DigitValue(s[|s| - 1])
  }

  /** The shortest lower-case hexadecimal numeral of `n`: no leading zero except for zero itself. */
  function NatToHex(n: nat): (s: string)
    ensures |s| >= 1
    ensures forall i :: 0 <= i < |s| ==> IsHexDigit(s[i])
    ensures |s| > 1 ==> s[0] != '0'
    ensures Value(s) == n
  {
    if n < 16 then
      [DigitChar(n)]
    else
      var high := NatToHex(n / 16);
      var s := high + [DigitChar(n % 16)];
      ValueAppend(high, DigitChar(n % 16));
      assert |high| == 1 ==> high[0] == DigitChar(n / 16) && n / 16 != 0;
      assert s[0] == high[0];
      s
  }

  lemma ValueAppend(s: string, c: char)
    requires forall i :: 0 <= i < |s| ==> IsHexDigit(s[i])
    requires IsHexDigit(c)
    ensures Value(s + [c]) == 16 * Value(s) + DigitValue(c)
  {
    assert (s + [c])[..|s|] == s;
  }

  /** `n.toString(16)` for an integer `n`. */
  function ToString16(n: int): (s: string)
    ensures n >= 0 ==>
      && |s| >= 1
      && (forall i :: 0 <= i < |s| ==> IsHexDigit(s[i]))
      && (|s| > 1 ==> s[0] != '0')
      && Value(s) == n
    ensures n < 0 ==>
      && |s| >= 2 && s[0] == '-'
      && (forall i :: 1 <= i < |s| ==> IsHexDigit(s[i]))
      && s[1] != '0'
      && Value(s[1..]) == -n
  {
    if n < 0 then "-" + NatToHex(-n) else NatToHex(n)
  }

  /** Distinct numbers get distinct numerals. */
  lemma NatToHexInjective(m: nat, n: nat)
    requires NatToHex(m) == NatToHex(n)
    ensures m == n
  {
    assert Value(NatToHex(m)) == m;
  }

  /** Base Sepolia's chain id, 84532, is `14a34` in hexadecimal. */
  lemma BaseSepoliaChainId()
    ensures ToString16(84532) == "14a34"
  {
    assert NatToHex(1) == "1";
    assert NatToHex(20) == "14";
    assert NatToHex(330) == "14a";
    assert NatToHex(5283) == "14a3";
  }
}

=== FILE: lists.dfy ===
/** `Array.prototype.filter` and the subsequence relation it establishes. */
module Lists {

  ghost predicate StrictlyIncreasing(idx: seq<nat>) {
    forall i, j :: 0 <= i < j < |idx| ==> idx[i] < idx[j]
  }

  /** `a` is `b` with some elements dropped and the rest kept in order. */
  ghost predicate IsSubsequence<T>(a: seq<T>, b: seq<T>) {
    exists idx: seq<nat> ::
      && |idx| == |a|
      && StrictlyIncreasing(idx)
      && (forall k :: 0 <= k < |idx| ==> idx[k] < |b| && a[k] == b[idx[k]])
  }

  /** The elements of `s` for which `keep` holds, in their original order. */
  function Filter<T>(s: seq<T>, keep: T -> bool): (r: seq<T>)
    ensures |r| <= |s|
    ensures forall i :: 0 <= i < |r| ==> r[i] in s && keep(r[i])
    ensures forall i :: 0 <= i < |s| && keep(s[i]) ==> s[i] in r
  {
    if s == [] then []
    else if keep(s[0]) then [s[0]] + Filter(s[1..], keep)
    else Filter(s[1..], keep)
  }

  /** The indices of `s` that `keep` selects, ascending: the witness that `Filter` is a subsequence. */
  lemma {:induction false} FilterIsSubsequence<T>(s: seq<T>, keep: T -> bool)
    ensures IsSubsequence(Filter(s, keep), s)
  {
    var idx := FilterIndices(s, keep);
  }

  lemma {:induction false} FilterIndices<T>(s: seq<T>, keep: T -> bool) returns (idx: seq<nat>)
    ensures |idx| == |Filter(s, keep)|
    ensures StrictlyIncreasing(idx)
    ensures forall k :: 0 <= k < |idx| ==> idx[k] < |s| && Filter(s, keep)[k] == s[idx[k]]
  {
    if s == [] {
      idx := [];
    } else {
      var tail := Filter(s[1..], keep);
      var rest := FilterIndices(s[1..], keep);
      var shifted := ShiftIndices(s, tail, rest);
      if keep(s[0]) {
        assert Filter(s, keep) == [s[0]] + tail;
        idx := PrependIndex(s, tail, shifted);
      } else {
        assert Filter(s, keep) == tail;
        idx := shifted;
      }
    }
  }

  /** Indices into `s[1..]` moved to indices into `s`. */
  lemma ShiftIndices<T>(s: seq<T>, tail: seq<T>, rest: seq<nat>) returns (shifted: seq<nat>)
    requires s != [] && |rest| == |tail| && StrictlyIncreasing(rest)
    requires forall k :: 0 <= k < |rest| ==> rest[k] < |s| - 1 && tail[k] == s[1..][rest[k]]
    ensures |shifted| == |tail| && StrictlyIncreasing(shifted)
    ensures forall k :: 0 <= k < |shifted| ==> 1 <= shifted[k] < |s| && tail[k] == s[shifted[k]]
  {
    shifted := seq(|rest|, k requires 0 <= k < |rest| => rest[k] + 1);
  }

  /** Index 0 put in front of indices that are all at least 1. */
  lemma PrependIndex<T>(s: seq<T>, tail: seq<T>, shifted: seq<nat>) returns (idx: seq<nat>)
    requires s != [] && |shifted| == |tail| && StrictlyIncreasing(shifted)
    requires forall k :: 0 <= k < |shifted| ==> 1 <= shifted[k] < |s| && tail[k] == s[shifted[k]]
    ensures |idx| == |tail| + 1 && StrictlyIncreasing(idx)
    ensures forall k :: 0 <= k < |idx| ==> idx[k] < |s| && ([s[0]] + tail)[k] == s[idx[k]]
  {
    idx := [0] + shifted;
  }

  /** When every element is kept, the filter is the identity. */
  lemma {:induction false} FilterAll<T>(s: seq<T>, keep: T -> bool)
    requires forall i :: 0 <= i < |s| ==> keep(s[i])
    ensures Filter(s, keep) == s
  {
    if s != [] {
      FilterAll(s[1..], keep);
    }
  }

  /** Filtering on a predicate implied by another keeps at least as much. */
  lemma {:induction false} FilterMonotone<T>(s: seq<T>, p: T -> bool, q: T -> bool)
    requires forall x :: p(x) ==> q(x)
    ensures |Filter(s, p)| <= |Filter(s, q)|
  {
    if s != [] {
      FilterMonotone(s[1..], p, q);
    }
  }

  /** Two predicates that agree on every element select the same elements. */
  lemma {:induction false} FilterAgree<T>(s: seq<T>, p: T -> bool, q: T -> bool)
    requires forall i :: 0 <= i < |s| ==> p(s[i]) == q(s[i])
    ensures Filter(s, p) == Filter(s, q)
  {
    if s != [] {
      FilterAgree(s[1..], p, q);
    }
  }

  /** When no element is kept, the filter is empty. */
  lemma {:induction false} FilterNone<T>(s: seq<T>, keep: T -> bool)
    requires forall i :: 0 <= i < |s| ==> !keep(s[i])
    ensures Filter(s, keep) == []
  {
    if s != [] {
      FilterNone(s[1..], keep);
    }
  }
}

=== FILE: optional.dfy ===
/** The absent-or-present value the TypeScript code writes as `T | null`. */
module Optional {

  datatype Option<+T> = None | Some(value: T) {

    /** The value, or `default` when absent (the `??` operator). */
    function GetOr(default: T): T {
      match this
      case Some(v) => v
      case None => default
    }
  }
}

=== FILE: proposals.dfy ===
/**
 * The government's proposal ranking: the selected bid's proposals, copied
 * and sorted by descending score with `Array.prototype.sort`, which is
 * stable, so proposals with equal scores keep the order they were sent in.
 * The first of the ranking is marked the best proposal, and each shows its
 * position counted from one.
 */
module Proposals {
  import opened Optional
  import opened Lists

  datatype ProposalStatus = Pending | Approved | Rejected

  datatype Proposal = Proposal(
    id: nat, company: string, cnpj: string, value: string, deadline: string,
    sentDate: string, score: int, status: ProposalStatus, documents: nat)

  datatype Bid = Bid(
    id: nat, name: string, contractingParty: string, initialValue: string,
    closingDate: string, proposals: seq<Proposal>)

  /** Higher scores first: the order the comparator `b.score - a.score` asks for. */
  ghost predicate Ranked(s: seq<Proposal>) {
    forall i, j :: 0 <= i < j < |s| ==> s[i].score >= s[j].score
  }

  /** The proposals of `s` that have score `k`, in their order in `s`. */
  function WithScore(s: seq<Proposal>, k: int): (r: seq<Proposal>)
    ensures forall i :: 0 <= i < |r| ==> r[i].score == k
  {
    Filter(s, (p: Proposal) => p.score == k)
  }

  /** Places `p` ahead of the first proposal of `t` that does not outscore it. */
  function Insert(p: Proposal, t: seq<Proposal>): (r: seq<Proposal>)
    ensures |r| == |t| + 1
    ensures multiset(r) == multiset(t) + multiset{p}
    ensures forall i :: 0 <= i < |r| ==> r[i] == p || r[i] in t
  {
    if t == [] || p.score >= t[0].score then
      [p] + t
    else
      assert t == [t[0]] + t[1..];
      [t[0]] + Insert(p, t[1..])
  }

  /** Insertion into a ranking yields a ranking. */
  lemma {:induction false} InsertKeepsRanked(p: Proposal, t: seq<Proposal>)
    requires Ranked(t)
    ensures Ranked(Insert(p, t))
  {
    if t != [] && p.score < t[0].score {
      var rest := Insert(p, t[1..]);
      InsertKeepsRanked(p, t[1..]);
      var r := [t[0]] + rest;
      assert Insert(p, t) == r;
      forall i, j | 0 <= i < j < |r| ensures r[i].score >= r[j].score {
        assert r[j] == rest[j - 1];
        if i == 0 {
          if rest[j - 1] != p {
            var k :| 0 <= k < |t[1..]| && t[1..][k] == rest[j - 1];
            assert t[k + 1] == rest[j - 1];
          }
        } else {
          assert r[i] == rest[i - 1];
        }
      }
    }
  }

  /** The stable sort by descending score. */
  function SortByScore(s: seq<Proposal>): (r: seq<Proposal>)
    ensures multiset(r) == multiset(s)
    ensures Ranked(r)
  {
    if s == [] then []
    else
      var rest := SortByScore(s[1..]);
      assert s == [s[0]] + s[1..];
      InsertKeepsRanked(s[0], rest);
      Insert(s[0], rest)
  }

  /** Inserting `p` keeps, among the proposals of score k, `p` first when it has that score. */
  lemma {:induction false} InsertStable(p: Proposal, t: seq<Proposal>, k: int)
    requires Ranked(t)
    ensures WithScore(Insert(p, t), k) == (if p.score == k then [p] else []) + WithScore(t, k)
  {
    if t == [] || p.score >= t[0].score {
      assert Insert(p, t) == [p] + t;
      assert ([p] + t)[1..] == t;
    } else {
      InsertStable(p, t[1..], k);
      assert Insert(p, t) == [t[0]] + Insert(p, t[1..]);
      assert ([t[0]] + Insert(p, t[1..]))[1..] == Insert(p, t[1..]);
      if t[0].score == k {
        // t[0] outscores p, so p is not of score k, and t[0] stays ahead of it
        assert p.score != k;
      }
    }
  }

  /** The sort is stable: for every score, the proposals with it keep their relative order. */
  lemma {:induction false} SortIsStable(s: seq<Proposal>, k: int)
    ensures WithScore(SortByScore(s), k) == WithScore(s, k)
  {
    if s != [] {
      SortIsStable(s[1..], k);
      InsertStable(s[0], SortByScore(s[1..]), k);
    }
  }

  /** The page's `sortedProposals`: nothing when no bid is selected, else the ranked copy. */
  function SortedProposals(selected: Option<Bid>): (r: seq<Proposal>)
    ensures selected.None? ==> r == []
    ensures selected.Some? ==> multiset(r) == multiset(selected.value.proposals) && Ranked(r)
  {
    match selected
    case None => []
    case Some(b) => SortByScore(b.proposals)
  }

  /** The position shown beside the proposal at `index` of the ranking. */
  function Position(index: nat): (n: nat)
    ensures n >= 1
    ensures n == 1 <==> index == 0
  {
    index + 1
  }

  /** Positions follow the ranking: a later place gets a larger number, one more per place. */
  lemma PositionsIncrease(i: nat, j: nat)
    requires i < j
    ensures Position(i) < Position(j)
    ensures Position(j) - Position(i) == j - i
  {
  }

  /** The proposal shown first, with the best-proposal badge, has the highest score of the bid. */
  lemma BestProposalHasTopScore(b: Bid)
    requires b.proposals != []
    ensures var r := SortedProposals(Some(b));
      r != [] && r[0] in b.proposals && forall p :: p in b.proposals ==> r[0].score >= p.score
  {
    var r := SortedProposals(Some(b));
    assert |r| == |b.proposals| by {
      assert |multiset(r)| == |multiset(b.proposals)|;
    }
    assert r[0] in multiset(b.proposals);
    forall p | p in b.proposals ensures r[0].score >= p.score {
      assert p in multiset(r);
      var j :| 0 <= j < |r| && r[j] == p;
    }
  }

  /** Sorting sorted proposals changes nothing. */
  lemma {:induction false} SortRankedIsIdentity(s: seq<Proposal>)
    requires Ranked(s)
    ensures SortByScore(s) == s
  {
    if s != [] {
      SortRankedIsIdentity(s[1..]);
      assert SortByScore(s[1..]) == s[1..];
      assert s == [s[0]] + s[1..];
    }
  }

  // ---------------------------------------------------------------------------
  // The sample data

  const BidsWithProposals: seq<Bid> := [
    Bid(1, "Highway Bridge Construction", "City Hall of Belo Horizonte", "R$ 15.000.000,00", "15/12/2024", [
      Proposal(1, "Construtora ABC Ltda", "12.345.678/0001-90", "R$ 14.200.000,00", "18 months", "10/12/2024 14:30", 95, Pending, 12),
      Proposal(2, "Engenharia XYZ S.A.", "98.765.432/0001-10", "R$ 14.800.000,00", "16 months", "09/12/2024 10:15", 88, Pending, 10),
      Proposal(3, "Obras Prime Constru\U{E7}\U{F5}es", "11.222.333/0001-44", "R$ 13.900.000,00", "20 months", "11/12/2024 16:45", 92, Pending, 11)
    ]),
    Bid(2, "Medical Equipment Supply", "Hospital das Cl\U{ED}nicas", "R$ 8.500.000,00", "22/12/2024", [
      Proposal(4, "MedEquip Tecnologia", "55.666.777/0001-88", "R$ 8.200.000,00", "6 months", "18/12/2024 09:20", 90, Pending, 8),
      Proposal(5, "HealthTech Solu\U{E7}\U{F5}es", "44.555.666/0001-99", "R$ 8.100.000,00", "8 months", "17/12/2024 15:30", 85, Pending, 7)
    ])
  ]

  /** The page opens on the first bid. */
  const InitialSelection: Option<Bid> := Some(BidsWithProposals[0])

  /** Three proposals where the last outscores the middle one and not the first are ranked first, last, middle. */
  lemma RankThree(a: Proposal, b: Proposal, c: Proposal)
    requires a.score >= c.score > b.score
    ensures SortByScore([a, b, c]) == [a, c, b]
  {
    RankTwo(b, c);
    assert [a, b, c][1..] == [b, c];
    assert Insert(a, [c, b]) == [a, c, b];
  }

  /** Two proposals, the second outscoring the first, are ranked second, first. */
  lemma RankTwo(b: Proposal, c: Proposal)
    requires c.score > b.score
    ensures SortByScore([b, c]) == [c, b]
  {
    assert [b, c][1..] == [c];
    assert [c][1..] == [];
    assert SortByScore([c]) == Insert(c, []);
    assert Insert(b, [c]) == [c] + Insert(b, []);
  }

  /** On opening, the bridge's proposals rank 1, 3, 2 by id: scores 95, 92, 88. */
  lemma InitialRanking()
    ensures var r := SortedProposals(InitialSelection);
      |r| == 3 && r[0].id == 1 && r[1].id == 3 && r[2].id == 2
  {
    var ps := BidsWithProposals[0].proposals;
    assert ps == [ps[0], ps[1], ps[2]];
    RankThree(ps[0], ps[1], ps[2]);
  }
}

=== FILE: protected_route.dfy ===
/**
 * The route guard: on mount it decides, from the stored session, whether the
 * protected children may be shown; until it allows them a spinner is shown.
 */
module ProtectedRoute {
  import opened Optional
  import opened Storage
  import opened Auth

  /** The default for the `redirectTo` property. */
  const DefaultRedirect := "/auth"

  datatype Decision = Allow | Redirect(target: string)

  /** What the component renders. */
  datatype View = Spinner | Nothing | Children

  /** The component's two state cells. */
  datatype GuardState = GuardState(isLoading: bool, isAuthorized: bool)

  const InitialState := GuardState(true, false)

  /** The role check alone: does the stored role satisfy `required`? */
  predicate RoleSatisfies(b: Browser, required: Option<UserType>) {
    match required
    case None => true
    case Some(Governo) => IsGoverno(b)
    case Some(Participante) => IsParticipante(b)
  }

  /**
   * `checkAuth`: authentication is checked first and sends to `redirectTo`;
   * a role mismatch always sends to the login page, whatever `redirectTo` is.
   */
  function CheckAuth(b: Browser, required: Option<UserType>, redirectTo: string): (d: Decision)
    ensures d == Allow <==> IsAuthenticated(b) && RoleSatisfies(b, required)
    ensures !IsAuthenticated(b) ==> d == Redirect(redirectTo)
    ensures IsAuthenticated(b) && !RoleSatisfies(b, required) ==> d == Redirect(LoginPath)
  {
    if !IsAuthenticated(b) then Redirect(redirectTo)
    else if required == Some(Governo) && !IsGoverno(b) then Redirect("/auth")
    else if required == Some(Participante) && !IsParticipante(b) then Redirect("/auth")
    else Allow
  }

  /** The `router.push` calls the decision issues. */
  function Pushes(d: Decision): (p: seq<string>)
    ensures d.Allow? <==> p == []
    ensures d.Redirect? ==> p == [d.target]
  {
    match d
    case Allow => []
    case Redirect(t) => [t]
  }

  /** The state after the effect: only the allow branch touches the state cells. */
  function Apply(s: GuardState, d: Decision): (s': GuardState)
    ensures d.Allow? ==> !s'.isLoading && s'.isAuthorized
    ensures d.Redirect? ==> s' == s
  {
    if d.Allow? then GuardState(false, true) else s
  }

  /** The render gate: spinner while loading, nothing when unauthorised, else the children. */
  function Render(s: GuardState): (v: View)
    ensures v == Children <==> !s.isLoading && s.isAuthorized
    ensures v == Spinner <==> s.isLoading
  {
    if s.isLoading then Spinner
    else if !s.isAuthorized then Nothing
    else Children
  }

  /** Mounting the guard: what is rendered after the check, and which redirects it issued. */
  function Mount(b: Browser, required: Option<UserType>, redirectTo: string): (r: (View, seq<string>))
    ensures r.0 == Children <==> IsAuthenticated(b) && RoleSatisfies(b, required)
    ensures r.0 != Children ==> r.0 == Spinner && |r.1| == 1
    ensures r.0 == Children ==> r.1 == []
  {
    var d := CheckAuth(b, required, redirectTo);
    (Render(Apply(InitialState, d)), Pushes(d))
  }

  // ---------------------------------------------------------------------------
  // Properties of the guard

  /** An unauthenticated visitor goes to `redirectTo` whatever role the page requires. */
  lemma UnauthenticatedGoesToRedirectTo(b: Browser, required: Option<UserType>, redirectTo: string)
    requires !IsAuthenticated(b)
    ensures Mount(b, required, redirectTo) == (Spinner, [redirectTo])
  {
  }

  /** A signed-in non-government user on a government page goes to the login page, not to `redirectTo`. */
  lemma RoleMismatchGoesToLogin(b: Browser, redirectTo: string)
    requires IsAuthenticated(b) && !IsGoverno(b)
    ensures Mount(b, Some(Governo), redirectTo) == (Spinner, [LoginPath])
    ensures IsParticipante(b) ==> Mount(b, Some(Participante), redirectTo) == (Children, [])
  {
  }

  /** With no required role every signed-in user is let in, whatever tag is stored. */
  lemma NoRoleRequiredAdmitsAnyUser(b: Browser, redirectTo: string)
    requires IsAuthenticated(b)
    ensures Mount(b, None, redirectTo) == (Children, [])
  {
  }

  /** From the initial state the `Nothing` view is never reached. */
  lemma NothingUnreachable(b: Browser, required: Option<UserType>, redirectTo: string)
    ensures Render(Apply(InitialState, CheckAuth(b, required, redirectTo))) != Nothing
  {
  }

  /** After logout no guarded page is shown. */
  lemma LoggedOutSeesNoPage(b: Browser, required: Option<UserType>, redirectTo: string)
    ensures Mount(Logout(b).browser, required, redirectTo).0 == Spinner
  {
  }
}

=== FILE: storage.dfy ===
/**
 * The browser's `localStorage` as a string-to-string map, and the
 * `typeof window !== "undefined"` guard: during server rendering there is no
 * window, reads yield null and writes are skipped.
 */
module Storage {
  import opened Optional

  type Store = map<string, string>

  datatype Browser = Browser(hasWindow: bool, store: Store)

  /** `localStorage.getItem(key)` on a store the page reads without a window guard. */
  function Lookup(s: Store, key: string): (r: Option<string>)
    ensures r.Some? <==> key in s
    ensures r.Some? ==> r.value == s[key]
  {
    if key in s then Some(s[key]) else None
  }

  /** JavaScript truthiness of a `string | null`: present and not the empty string. */
  predicate Truthy(v: Option<string>) {
    v.Some? && v.value != ""
  }

  /** Guarded `localStorage.getItem(key)`. */
  function GetItem(b: Browser, key: string): (r: Option<string>)
    ensures !b.hasWindow ==> r == None
    ensures b.hasWindow ==> r == Lookup(b.store, key)
  {
    if b.hasWindow then Lookup(b.store, key) else None
  }

  /** Guarded `localStorage.setItem(key, value)`: only `key` changes. */
  function SetItem(b: Browser, key: string, value: string): (r: Browser)
    ensures r.hasWindow == b.hasWindow
    ensures b.hasWindow ==> GetItem(r, key) == Some(value)
    ensures !b.hasWindow ==> r == b
    ensures forall k :: k != key ==> GetItem(r, k) == GetItem(b, k)
    ensures b.hasWindow ==> r.store.Keys == b.store.Keys + {key}
  {
    if b.hasWindow then b.(store := b.store[key := value]) else b
  }

  /** Guarded `localStorage.removeItem(key)`: only `key` changes. */
  function RemoveItem(b: Browser, key: string): (r: Browser)
    ensures r.hasWindow == b.hasWindow
    ensures GetItem(r, key) == None
    ensures !b.hasWindow ==> r == b
    ensures forall k :: k != key ==> GetItem(r, k) == GetItem(b, k)
    ensures b.hasWindow ==> r.store.Keys == b.store.Keys - {key}
  {
    if b.hasWindow then b.(store := b.store - {key}) else b
  }
}

=== FILE: text.dfy ===
/**
 * The JavaScript string operations the pages rely on: `trim`, `toLowerCase`,
 * `includes`, `startsWith`, `slice`, `length` and the `\s` / `\d` classes of
 * regular expressions. Strings are sequences of Unicode scalar values.
 */
module Text {
  import Lists

  /** The characters JavaScript's `\s` matches; `String.prototype.trim` strips the same set. */
  predicate IsWhitespace(c: char) {
    || ('\t' <= c <= '\r')
    || c == ' '
    || c == '\U{A0}'
    || c == '\U{1680}'
    || ('\U{2000}' <= c <= '\U{200A}')
    || c == '\U{2028}'
    || c == '\U{2029}'
    || c == '\U{202F}'
    || c == '\U{205F}'
    || c == '\U{3000}'
    || c == '\U{FEFF}'
  }

  /** Every character is whitespace (the empty string included). */
  predicate IsBlank(s: string) {
    forall i :: 0 <= i < |s| ==> IsWhitespace(s[i])
  }

  /** The `\d` class: ASCII digits only. */
  predicate IsDigit(c: char) {
    '0' <= c <= '9'
  }

  predicate AllDigits(s: string) {
    forall i :: 0 <= i < |s| ==> IsDigit(s[i])
  }

  // ---------------------------------------------------------------------------
  // trim

  /** Drops the leading whitespace: the result is a suffix of `s`, what was dropped is blank. */
  function TrimStart(s: string): (r: string)
    ensures |r| <= |s| && r == s[|s| - |r|..]
    ensures IsBlank(s[..|s| - |r|])
    ensures r == [] || !IsWhitespace(r[0])
  {
    if s == [] || !IsWhitespace(s[0]) then s
    else
      var r := TrimStart(s[1..]);
      assert s[..|s| - |r|] == [s[0]] + s[1..][..|s[1..]| - |r|];
      r
  }

  /** Drops the trailing whitespace: the result is a prefix of `s`, what was dropped is blank. */
  function TrimEnd(s: string): (r: string)
    ensures |r| <= |s| && r == s[..|r|]
    ensures IsBlank(s[|r|..])
    ensures r == [] || !IsWhitespace(r[|r| - 1])
  {
    if s == [] || !IsWhitespace(s[|s| - 1]) then s
    else
      var r := TrimEnd(s[..|s| - 1]);
      assert s[|r|..] == s[..|s| - 1][|r|..] + [s[|s| - 1]];
      r
  }

  /** `String.prototype.trim`. */
  function Trim(s: string): (r: string)
    ensures |r| <= |s|
    ensures r == [] || (!IsWhitespace(r[0]) && !IsWhitespace(r[|r| - 1]))
  {
    TrimEnd(TrimStart(s))
  }

  /** `!s.trim()` holds exactly for the blank strings. */
  lemma TrimEmptyIffBlank(s: string)
    ensures Trim(s) == [] <==> IsBlank(s)
  {
    var t := TrimStart(s);
    var k := |s| - |t|;
    if Trim(s) == [] {
      assert t[0..] == t;
      assert t == [];
      assert s == s[..k];
    }
  }

  // ---------------------------------------------------------------------------
  // toLowerCase

  /** Lower-case mapping of one character: ASCII and Latin-1 capitals; everything else is kept. */
  function LowerChar(c: char): (d: char)
    ensures 'A' <= c <= 'Z' ==> 'a' <= d <= 'z'
    ensures !('A' <= c <= 'Z') && !('\U{C0}' <= c <= '\U{DE}') ==> d == c
  {
    if 'A' <= c <= 'Z' || ('\U{C0}' <= c <= '\U{DE}' && c != '\U{D7}') then
      (c as int + 32) as char
    else
      c
  }

  function ToLower(s: string): (r: string)
    ensures |r| == |s|
    ensures forall i :: 0 <= i < |s| ==> r[i] == LowerChar(s[i])
  {
    seq(|s|, i requires 0 <= i < |s| => LowerChar(s[i]))
  }

  /** Lower-casing twice is lower-casing once: the images of capitals are not capitals. */
  lemma ToLowerIdempotent(s: string)
    ensures ToLower(ToLower(s)) == ToLower(s)
  {
    forall i | 0 <= i < |s| ensures LowerChar(LowerChar(s[i])) == LowerChar(s[i]) {
      var c := s[i];
      if '\U{C0}' <= c <= '\U{DE}' && c != '\U{D7}' {
        assert '\U{E0}' <= LowerChar(c) <= '\U{FE}';
      }
    }
  }

  // ---------------------------------------------------------------------------
  // startsWith / includes

  /** `s.startsWith(prefix)`. */
  predicate StartsWith(s: string, prefix: string) {
    |prefix| <= |s| && s[..|prefix|] == prefix
  }

  /** `needle` occurs in `hay` at position `i`. */
  predicate OccursAt(hay: string, needle: string, i: int) {
    0 <= i && i + |needle| <= |hay| && hay[i..i + |needle|] == needle
  }

  /** The reference meaning of `hay.includes(needle)`: an occurrence at some position. */
  ghost predicate IsSubstring(needle: string, hay: string) {
    exists i :: OccursAt(hay, needle, i)
  }

  /** `hay.includes(needle)`, computed by trying every start position. */
  function Includes(hay: string, needle: string): (b: bool)
    ensures b <==> IsSubstring(needle, hay)
    decreases |hay|
  {
    if StartsWith(hay, needle) then
      assert OccursAt(hay, needle, 0);
      true
    else if hay == [] then
      assert forall i :: !OccursAt(hay, needle, i);
      false
    else
      var b := Includes(hay[1..], needle);
      assert b ==> exists i :: OccursAt(hay, needle, i) by {
        if b {
          var i :| OccursAt(hay[1..], needle, i);
          OccursShift(hay, needle, i);
        }
      }
      assert (exists i :: OccursAt(hay, needle, i)) ==> b by {
        if exists i :: OccursAt(hay, needle, i) {
          var i :| OccursAt(hay, needle, i);
          OccursUnshift(hay, needle, i);
        }
      }
      b
  }

  /** An occurrence in the tail is an occurrence one place further in the whole. */
  lemma {:induction false} OccursShift(hay: string, needle: string, i: int)
    requires hay != [] && OccursAt(hay[1..], needle, i)
    ensures OccursAt(hay, needle, i + 1)
  {
    assert hay[i + 1..i + 1 + |needle|] == hay[1..][i..i + |needle|];
  }

  /** An occurrence past the first place is an occurrence one place earlier in the tail. */
  lemma {:induction false} OccursUnshift(hay: string, needle: string, i: int)
    requires hay != [] && i >= 1 && OccursAt(hay, needle, i)
    ensures OccursAt(hay[1..], needle, i - 1)
  {
    assert hay[1..][i - 1..i - 1 + |needle|] == hay[i..i + |needle|];
  }

  /** The empty string occurs in every string. */
  lemma IncludesEmpty(hay: string)
    ensures Includes(hay, "")
  {
    assert OccursAt(hay, "", 0);
  }

  // ---------------------------------------------------------------------------
  // slice and length

  function Min(a: int, b: int): int {
    if a <= b then a else b
  }

  /** `s.slice(0, n)`. */
  function Take(s: string, n: nat): (r: string)
    ensures |r| == Min(n, |s|)
    ensures StartsWith(s, r)
  {
    s[..Min(n, |s|)]
  }

  /** `s.slice(-n)` for n > 0: the last n characters, or all of `s` when it is shorter. */
  function TakeLast(s: string, n: nat): (r: string)
    ensures |r| == Min(n, |s|)
    ensures r == s[|s| - |r|..]
  {
    s[|s| - Min(n, |s|)..]
  }

  /** `s.length`: JavaScript counts UTF-16 code units, so a character above U+FFFF counts twice. */
  function Utf16Length(s: string): (n: nat)
    ensures |s| <= n <= 2 * |s|
    ensures (forall i :: 0 <= i < |s| ==> s[i] <= '\U{FFFF}') ==> n == |s|
  {
    if s == [] then 0
    else (if s[0] <= '\U{FFFF}' then 1 else 2) + Utf16Length(s[1..])
  }

  // ---------------------------------------------------------------------------
  // replace(/\D/g, "")

  /** Keeps the digits of `s`, in order. */
  function DigitsOnly(s: string): (r: string)
    ensures AllDigits(r)
    ensures |r| <= |s|
  {
    if s == [] then []
    else (if IsDigit(s[0]) then [s[0]] else []) + DigitsOnly(s[1..])
  }

  lemma {:induction false} DigitsOnlyAppend(a: string, b: string)
    ensures DigitsOnly(a + b) == DigitsOnly(a) + DigitsOnly(b)
  {
    if a == [] {
      assert a + b == b;
    } else {
      assert (a + b)[1..] == a[1..] + b;
      DigitsOnlyAppend(a[1..], b);
    }
  }

  /** A string of digits is left as it is. */
  lemma {:induction false} DigitsOnlyOfDigits(s: string)
    requires AllDigits(s)
    ensures DigitsOnly(s) == s
  {
    if s != [] {
      DigitsOnlyOfDigits(s[1..]);
    }
  }

  /** A string with no digit vanishes. */
  lemma {:induction false} DigitsOnlyOfNonDigits(s: string)
    requires forall i :: 0 <= i < |s| ==> !IsDigit(s[i])
    ensures DigitsOnly(s) == []
  {
    if s != [] {
      DigitsOnlyOfNonDigits(s[1..]);
    }
  }

  /** Dropping the non-digits is filtering by the `\d` class: every digit is kept, in order. */
  lemma {:induction false} DigitsOnlyIsFilter(s: string)
    ensures DigitsOnly(s) == Lists.Filter(s, IsDigit)
  {
    if s != [] {
      DigitsOnlyIsFilter(s[1..]);
    }
  }

  /** Removing the non-digits twice is removing them once. */
  lemma DigitsOnlyIdempotent(s: string)
    ensures DigitsOnly(DigitsOnly(s)) == DigitsOnly(s)
  {
    DigitsOnlyOfDigits(DigitsOnly(s));
  }
}
